=== FILE: README.md ===
# Rewards and Recognition: nomination lifecycle model

A Dafny model of the core of the Rewards and Recognition web application. In it:

- employees nominate colleagues;
- Managers and Directors review nominations;
- every review is recorded in an approval ledger;
- role-scoped dashboards count what each user can see.

The model covers these parts:

- **Nomination lifecycle** (`NominationController`): creating and drafting nominations, editing drafts, editing any nomination, and the review decision. Review moves a nomination to a Manager- or Director-level decision and appends one ledger entry.
- **Approval ledger** (`ApprovalRepo`): the Approvals table and its repository operations.
- **Queries** (`NominationRepo`): soft delete and the role- and team-scoped nomination queries. The join runs nominee → team → manager/director.
- **Dashboards** (`Dashboard`): the generic dashboard and the TeamLead, Manager, Director and Employee dashboards.
- **Reporting periods** (`YearQuarterRepo`, `QuarterDateHelper`): the year-quarter rules, with at most one active quarter and no soft delete of the active one, and the calendar range of a quarter.
- **Paging** (`RepositoryExtensions`): clamp, count and slice.
- **Users and teams** (`UserRepo`, `TeamController`): user soft delete and restore, the user list filters, team reference validation and field copying, and the team paged list.

How the model represents the application:

- The database is a `Store` with one sequence per table. Primary keys are unique (`Domain.WellFormed`).
- Each user's role names are a sequence, in the order the identity store returns them.
- Every endpoint is a pure function from a store (plus its inputs) to an `Outcome`: the new store and either a result or an `Error`.
- Every error path leaves the store unchanged, except `YearQuarterRepo.Add`'s duplicate key: its deactivation of the other quarters has already happened.
- Inputs that the running system takes from outside become parameters:
  - the clock (`now`);
  - new Guids (`approvalId`);
  - the outcome of model-attribute validation (`modelValid`);
  - the signed-in user (`caller`).
- Role handling follows the source:
  - the dashboards and the paged nomination list act on the caller's *first* role;
  - `Review` tests role *membership*.

Properties proved include:

- Create never stores a Draft.
- Review ignores the nomination's current status, so a Director can decide an already final nomination again. It appends exactly one ledger entry, whose level matches the new status.
- The TeamLead dashboard's three cards partition its total.
- The Director dashboard's cards add up to the total plus the number of nominations that hold both a Director approval and a Director rejection.
- Adding or updating a quarter keeps at most one quarter active.
- The four quarter ranges are contiguous and partition the year.
- Reading pages 1..k in turn yields a prefix of the query.
- Soft delete followed by restore gives back the quarter, and gives back the user as active and not deleted (even one that was inactive before); soft delete is idempotent.

Three behaviours of the code are worth stating plainly, because a reader might expect otherwise:

- `Review` has no finality check, no duplicate-approval guard, and no rule that a Manager acts only on `PendingManager`. Any Manager or Director review of an existing nomination succeeds and appends a ledger entry. See `NominationController.ReviewIgnoresCurrentStatus`, `NominationController.DirectorReviewsFinalizedNomination` and `NominationController.ReviewTwiceSucceeds`.
- The Director dashboard's cards reconcile with the total only when no nomination holds both a Director approval and a Director rejection (`Dashboard.DirectorCardsReconcile`).
- The Employee and TeamLead visibility list is not deduplicated by nomination id (`Dashboard.Visible`).

## Model

| member | source | states |
|---|---|---|
| Domain.FindNomination | RewardsAndRecognitionRepository/Repos/NominationRepo.cs:59-78 | the lookup returns a row carrying the id, and returns nothing only when no row carries it |
| Domain.FindNominationUnique | RewardsAndRecognitionRepository/Repos/NominationRepo.cs:59-78 | with unique keys, looking up a stored nomination's id returns that very nomination |
| Domain.FirstRole | RewardsAndRecognitionWebAPI/Controllers/DashboardController.cs:52-53 | the role the dashboards act on is the first role the identity store lists, and is absent exactly when the user holds no role |
| Domain.NomineeTeam | RewardsAndRecognitionRepository/Repos/NominationRepo.cs:289-301 | the nominee's team, when found, is a stored team whose id is the nominee's TeamId; it is found whenever the nominee's TeamId names a stored team |
| NominationStatusHelper.IsFinalState | RewardsAndRecognitionRepository/Helpers/NominationStatusHelper.cs:23-27 | a status is final exactly when it is in the FinalStates array |
| NominationStatusHelper.FinalStatesExact | RewardsAndRecognitionRepository/Helpers/NominationStatusHelper.cs:14-18 | the final states are exactly the two Director decisions, listed once each |
| NominationStatusHelper.NonFinalStates | RewardsAndRecognitionRepository/Enums/NominationStatus.cs:11-17 | Draft, the two pending states and the two Manager decisions are all non-final |
| QuarterDateHelper.GetQuarterDateRange | RewardsAndRecognitionRepository/Helpers/QuarterDateHelper.cs:14-22 | a quarter outside Q1..Q4 is an argument error; otherwise the range runs from day 1 of month 3(q-1)+1 to the last day of month 3q of the given year, and its start is strictly before its end |
| QuarterDateHelper.QuartersContiguous | RewardsAndRecognitionRepository/Helpers/QuarterDateHelper.cs:18-21 | the day after each quarter's end is the next quarter's start; after Q4 it is the next year's Q1 |
| QuarterDateHelper.QuartersPartitionYear | RewardsAndRecognitionRepository/Helpers/QuarterDateHelper.cs:18-21 | every valid date lies in the range of exactly one quarter, the one its month determines |
| RepositoryExtensions.ClampPageNumber | RewardsAndRecognitionRepository/Data/RepositoryExtensions.cs:22 | the page number used is at least 1 and is the valid page number nearest to the requested one |
| RepositoryExtensions.ClampPageSize | RewardsAndRecognitionRepository/Data/RepositoryExtensions.cs:23-25 | the page size used lies in 1..200 and is the valid size nearest to the requested one |
| RepositoryExtensions.ClampIdempotent | RewardsAndRecognitionRepository/Data/RepositoryExtensions.cs:22-25 | clamping an already clamped page number or size changes nothing |
| RepositoryExtensions.ToPagedResult | RewardsAndRecognitionRepository/Data/RepositoryExtensions.cs:14-46 | the result reports the clamped page number and size and the size of the whole query; its items are the query elements from position (p-1)*s onward, at most s of them, in order |
| RepositoryExtensions.PageKeepsOrder | RewardsAndRecognitionRepository/Data/RepositoryExtensions.cs:31-37 | a page of an ordered query is itself ordered and holds only elements of the query, so the endpoints' orderings survive paging |
| RepositoryExtensions.PagesArePrefix | RewardsAndRecognitionRepository/Data/RepositoryExtensions.cs:31-33 | reading pages 1..k with the same size and concatenating them yields the first k*s elements of the query, or all of them when there are fewer |
| RepositoryExtensions.PageBeyondEndIsEmpty | RewardsAndRecognitionRepository/Data/RepositoryExtensions.cs:31-33 | with the offset computed exactly, a page that starts past the end of the query is empty |
| RepositoryExtensions.ToPagedResultAsWritten | RewardsAndRecognitionRepository/Data/RepositoryExtensions.cs:31-33 | with the source's 32-bit offset, a page is produced exactly when the wrapped offset is non-negative; it then reports the clamped page number and size and the whole query's size, and its items are the query's elements starting at the wrapped offset, one page size of them or fewer at the end |
| RepositoryExtensions.WrappedOffsetReturnsFirstPage | RewardsAndRecognitionRepository/Data/RepositoryExtensions.cs:31-33 | page 536870913 of size 200 wraps to offset 0: the source returns the first page's items, where the exact computation returns none |
| ApprovalRepo.ActionAtOrdersArePreorders | RewardsAndRecognitionRepository/Repos/ApprovalRepo.cs:31-50 | ActionAt ascending and ActionAt descending are total preorders, so both ledger queries have a well-defined order |
| ApprovalRepo.GetApprovalById | RewardsAndRecognitionRepository/Repos/ApprovalRepo.cs:21-29 | the entry returned carries the id, and nothing is returned exactly when no entry has that id |
| ApprovalRepo.GetApprovalsByNominationId | RewardsAndRecognitionRepository/Repos/ApprovalRepo.cs:31-39 | a permutation of exactly the nomination's entries, ordered by ActionAt ascending |
| ApprovalRepo.GetApprovalsByApproverId | RewardsAndRecognitionRepository/Repos/ApprovalRepo.cs:41-50 | a permutation of exactly the approver's entries, ordered by ActionAt descending |
| ApprovalRepo.CreateApproval | RewardsAndRecognitionRepository/Repos/ApprovalRepo.cs:52-57 | a fresh id is appended at the end and the same record is returned; every earlier entry is untouched; a taken id stores nothing; key uniqueness is kept |
| ApprovalRepo.UpdateApproval | RewardsAndRecognitionRepository/Repos/ApprovalRepo.cs:59-76 | reports true exactly when the id is present; the entry with that id is replaced and every other entry is kept; an absent id changes nothing |
| ApprovalRepo.DeleteApproval | RewardsAndRecognitionRepository/Repos/ApprovalRepo.cs:78-87 | reports true exactly when the id is present; the ledger then holds every other entry and, with unique ids, is exactly one shorter; an absent id changes nothing |
| ApprovalRepo.CreateThenAlreadyApproved | RewardsAndRecognitionRepository/Repos/ApprovalRepo.cs:89-93 | after an entry is recorded, the duplicate check holds for its approver and nomination and is unchanged for every other pair |
| ApprovalRepo.AlreadyApprovedMatchesQuery | RewardsAndRecognitionRepository/Repos/ApprovalRepo.cs:89-93 | the duplicate check holds exactly when the per-nomination query returns an entry by that approver, whatever the entry's action or level |
| NominationRepo.CreatedAtDescendingIsPreorder | RewardsAndRecognitionWebAPI/Controllers/NominationController.cs:115 | newest-first by CreatedAt is a total preorder |
| NominationRepo.GetAllNominations | RewardsAndRecognitionRepository/Repos/NominationRepo.cs:25-57 | deleted nominations are excluded unless asked for; when they are asked for, the whole table is returned |
| NominationRepo.GetNominationsByNominator | RewardsAndRecognitionRepository/Repos/NominationRepo.cs:189-215 | exactly the non-deleted nominations written by the user |
| NominationRepo.GetNominationsForNominee | RewardsAndRecognitionRepository/Repos/NominationRepo.cs:217-241 | exactly the non-deleted nominations the user received |
| NominationRepo.GetPendingNominationsForApprover | RewardsAndRecognitionRepository/Repos/NominationRepo.cs:243-287 | exactly the non-deleted nominations pending at Manager level where the nominee's team's manager is the approver, or pending at Director level where its director is the approver |
| NominationRepo.GetNominationsForTeamsManagedByUser | RewardsAndRecognitionRepository/Repos/NominationRepo.cs:289-301 | exactly the non-deleted nominations whose nominee's team names the user as manager or director, whether or not the team is deleted |
| NominationRepo.GetNominationsByTeam | RewardsAndRecognitionRepository/Repos/NominationRepo.cs:303-314 | exactly the non-deleted nominations whose nominee's TeamId is the team |
| NominationRepo.GetNominationsPendingManagerApprovalForUser | RewardsAndRecognitionRepository/Repos/NominationRepo.cs:316-327 | exactly the non-deleted PendingManager nominations whose nominee's team's manager is the user |
| NominationRepo.GetNominationsPendingDirectorApprovalForUser | RewardsAndRecognitionRepository/Repos/NominationRepo.cs:329-340 | exactly the non-deleted PendingDirector nominations whose nominee's team's director is the user |
| NominationRepo.PendingSplitsByStatus | RewardsAndRecognitionRepository/Repos/NominationRepo.cs:243-340 | the combined pending query is the union of the Manager-level and Director-level queries, which split it by status |
| NominationRepo.TeamlessNomineeNeverPending | RewardsAndRecognitionRepository/Repos/NominationRepo.cs:259-281 | a nomination whose nominee has no team is pending for nobody |
| NominationRepo.PendingIsManaged | RewardsAndRecognitionRepository/Repos/NominationRepo.cs:243-301 | whatever is pending for an approver is among the nominations of the teams the approver manages or directs |
| NominationRepo.GetUsedCategoryIds | RewardsAndRecognitionRepository/Repos/NominationRepo.cs:149-163 | exactly the category ids that some non-deleted nomination uses |
| NominationRepo.GetUniqueCategories | RewardsAndRecognitionRepository/Repos/NominationRepo.cs:125-147 | exactly the non-deleted categories that some non-deleted nomination uses |
| NominationRepo.SoftDeleteNomination | RewardsAndRecognitionRepository/Repos/NominationRepo.cs:165-181 | a missing or already deleted id is a no-op; otherwise only IsDeleted of that row is set and every other table is untouched; key uniqueness is kept |
| NominationRepo.SoftDeleteIdempotent | RewardsAndRecognitionRepository/Repos/NominationRepo.cs:169-179 | a second soft delete changes nothing |
| NominationRepo.SoftDeletedLeavesQueries | RewardsAndRecognitionRepository/Repos/NominationRepo.cs:165-241 | once soft-deleted, the nomination disappears from the default listing, the nominator query and the pending query |
| NominationController.AddNomination | RewardsAndRecognitionRepository/Repos/NominationRepo.cs:83-91 | a fresh id is appended and returned unchanged; a taken id is a database error that stores nothing; key uniqueness is kept |
| NominationController.Create | RewardsAndRecognitionWebAPI/Controllers/NominationController.cs:198-214 | an invalid model stores nothing; the default Draft status becomes PendingManager and any other status is kept, so Create never stores a Draft; the creation time is set and nothing else of the supplied nomination changes |
| NominationController.SaveDraft | RewardsAndRecognitionWebAPI/Controllers/NominationController.cs:218-230 | a blank nominator fails and stores nothing; otherwise the nomination is stored as a Draft, whatever status was supplied |
| NominationController.ReplaceNomination | RewardsAndRecognitionRepository/Repos/NominationRepo.cs:93-101 | the row with the nomination's id is replaced; every other row and every other table is kept; key uniqueness is kept |
| NominationController.UpdateDraft | RewardsAndRecognitionWebAPI/Controllers/NominationController.cs:234-257 | an id mismatch, a missing nomination or a non-Draft nomination fails with no change; on success only nominee, category, quarter, description and achievements change, and the status stays Draft |
| NominationController.Update | RewardsAndRecognitionWebAPI/Controllers/NominationController.cs:304-318 | an invalid form or an id mismatch fails before any lookup; a missing nomination is not found; on success only category, quarter, description and achievements change, whatever the status or deletion flag |
| NominationController.DecisionOf | RewardsAndRecognitionWebAPI/Controllers/NominationController.cs:371-384 | the decision a status records maps back to that status |
| NominationController.DecisionRoundTrip | RewardsAndRecognitionWebAPI/Controllers/NominationController.cs:371-384 | every level and action pair is recovered from the status it produces |
| NominationController.Review | RewardsAndRecognitionWebAPI/Controllers/NominationController.cs:330-407 | the checks run in the source's order (body, action, user id, nomination, user, TeamLead role, action parse, review role), each refusal with its own error, and each failure leaves the store unchanged; a TeamLead is refused even when also Manager or Director; on success the status is the Manager decision when the roles contain Manager and otherwise the Director decision; exactly one entry is appended, with the caller, the parsed action and the matching level; emails are due exactly on DirectorApproved |
| NominationController.ReviewKeepsWellFormed | RewardsAndRecognitionWebAPI/Controllers/NominationController.cs:390-407 | a review keeps every table's keys unique |
| NominationController.FindAfterSetStatus | RewardsAndRecognitionWebAPI/Controllers/NominationController.cs:343-351 | overwriting a nomination's status changes neither whether the lookup finds it nor anything but the status it returns |
| NominationController.ReviewIgnoresCurrentStatus | RewardsAndRecognitionWebAPI/Controllers/NominationController.cs:343-388 | the review's response and ledger entry are the same whatever the nomination's current status, final states included |
| NominationController.DirectorReviewsFinalizedNomination | RewardsAndRecognitionWebAPI/Controllers/NominationController.cs:371-407 | a Director may review a nomination that is already DirectorApproved; the review succeeds at Director level and adds one more ledger entry |
| NominationController.ReviewTwiceSucceeds | RewardsAndRecognitionWebAPI/Controllers/NominationController.cs:393-407 | no duplicate-approval guard: after a review the approver is on record, yet the same request succeeds again and the ledger grows by two |
| NominationController.PagedCandidates | RewardsAndRecognitionWebAPI/Controllers/NominationController.cs:70-115 | exactly the nominations the first-role filter and the deletion filter keep, newest first |
| NominationController.GetPaged | RewardsAndRecognitionWebAPI/Controllers/NominationController.cs:46-122 | clamped page number and size; the total counts every listed nomination; a Director or Manager sees only nominations whose nominee's non-deleted team names them in that role; deleted ones only when asked; the items are the listed nominations, newest first, from position (page − 1) × size up to one page size further, cut off at the end |
| YearQuarterRepo.DeactivateWhere | RewardsAndRecognitionRepository/Repos/YearQuarterRepo.cs:36-40 | the bulk update clears IsActive on exactly the matching active rows and touches nothing else |
| YearQuarterRepo.Add | RewardsAndRecognitionRepository/Repos/YearQuarterRepo.cs:32-43 | an active quarter first deactivates every stored quarter and is then the only active one; an inactive quarter leaves the others' flags unchanged; a taken id fails after the deactivation; at most one active quarter and key uniqueness are kept |
| YearQuarterRepo.Update | RewardsAndRecognitionRepository/Repos/YearQuarterRepo.cs:46-82 | a missing id is not found and changes nothing; only StartDate, EndDate and IsActive of the row are copied, so Year and Quarter stay; activating it deactivates every other row, leaving it the only active one |
| YearQuarterRepo.UpdateKeepsAtMostOneActive | RewardsAndRecognitionRepository/Repos/YearQuarterRepo.cs:66-78 | Update keeps at most one quarter active |
| YearQuarterRepo.SoftDelete | RewardsAndRecognitionRepository/Repos/YearQuarterRepo.cs:108-116 | a missing or active quarter is left alone; otherwise only IsDeleted of that quarter is set; active rows are never deleted |
| YearQuarterRepo.Restore | RewardsAndRecognitionRepository/Repos/YearQuarterRepo.cs:118-126 | with unique ids, a deleted quarter comes back with IsDeleted cleared, whether or not it is active; only that quarter's row can change; a quarter that is not deleted is left alone; no IsActive flag changes |
| YearQuarterRepo.RestoreUndoesSoftDelete | RewardsAndRecognitionRepository/Repos/YearQuarterRepo.cs:108-126 | restoring a quarter that was just soft-deleted gives back the original table |
| YearQuarterRepo.Delete | RewardsAndRecognitionRepository/Repos/YearQuarterRepo.cs:85-92 | a missing id fails and leaves the table unchanged (the source passes null to `Remove`, which throws; the model reports NotFound); otherwise the quarter's row is removed and every other row is kept |
| YearQuarterRepo.Exists | RewardsAndRecognitionRepository/Repos/YearQuarterRepo.cs:94-97 | true exactly when a non-deleted quarter has the id |
| YearQuarterRepo.GetById | RewardsAndRecognitionRepository/Repos/YearQuarterRepo.cs:25-30 | the quarter with the id, deleted or not, and nothing exactly when no row carries it |
| YearQuarterRepo.NewestIsPreorder | RewardsAndRecognitionRepository/Repos/YearQuarterRepo.cs:19-21 | year descending, then quarter descending, is a total preorder |
| YearQuarterRepo.GetAll | RewardsAndRecognitionRepository/Repos/YearQuarterRepo.cs:16-23 | exactly the non-deleted quarters, one entry per such row, newest year first, then highest quarter first |
| YearQuarterRepo.GetDeleted | RewardsAndRecognitionRepository/Repos/YearQuarterRepo.cs:99-106 | exactly the deleted quarters, one entry per such row, newest year first, then highest quarter first |
| YearQuarterRepo.GetActive | RewardsAndRecognitionRepository/Repos/YearQuarterRepo.cs:128-135 | does not filter on IsActive: it lists every non-deleted quarter, inactive ones included, exactly as GetAll does |
| YearQuarterRepo.ListingsSplitTable | RewardsAndRecognitionRepository/Repos/YearQuarterRepo.cs:16-23 | the non-deleted and the deleted listings split the table: each quarter is in exactly one of them |
| YearQuarterRepo.UpdateCanActivateDeleted | RewardsAndRecognitionRepository/Repos/YearQuarterRepo.cs:46-82 | Update does not look at IsDeleted, so a deleted quarter can be made active and is then both |
| UserRepo.SoftDelete | RewardsAndRecognitionRepository/Repos/UserRepo.cs:87-97 | the user is marked deleted and inactive, every other row is kept, and a missing id is a no-op |
| UserRepo.Restore | RewardsAndRecognitionRepository/Repos/UserRepo.cs:109-119 | the user is marked not deleted and active, every other row is kept, and a missing id is a no-op |
| UserRepo.RestoreAfterSoftDelete | RewardsAndRecognitionRepository/Repos/UserRepo.cs:87-119 | restoring after a soft delete yields an active, non-deleted user with everything else as before |
| UserRepo.SoftDeleteIdempotent | RewardsAndRecognitionRepository/Repos/UserRepo.cs:87-97 | a second soft delete changes nothing |
| UserRepo.Delete | RewardsAndRecognitionRepository/Repos/UserRepo.cs:99-107 | removes exactly the user's row; a missing id is a no-op |
| UserRepo.ByNameIsPreorder | RewardsAndRecognitionRepository/Repos/UserRepo.cs:31 | ordering by name is a total preorder |
| UserRepo.GetUnassigned | RewardsAndRecognitionRepository/Repos/UserRepo.cs:27-33 | exactly the non-deleted users without a team, one entry per such row, ordered by name ascending |
| UserRepo.GetActive | RewardsAndRecognitionRepository/Repos/UserRepo.cs:43-50 | exactly the active, non-deleted users |
| UserRepo.GetDeleted | RewardsAndRecognitionRepository/Repos/UserRepo.cs:53-60 | exactly the deleted users |
| UserRepo.GetByTeam | RewardsAndRecognitionRepository/Repos/UserRepo.cs:62-67 | exactly the active, non-deleted members of the team |
| UserRepo.SoftDeleteMovesBetweenLists | RewardsAndRecognitionRepository/Repos/UserRepo.cs:43-119 | soft delete moves the user from the active list to the deleted list, and restore moves the user back |
| UserRepo.GetLeads | RewardsAndRecognitionRepository/Repos/UserRepo.cs:137-161 | exactly the non-deleted TeamLead role holders who are the current lead or lead no team |
| UserRepo.LeadOfDeletedTeamIsNotOffered | RewardsAndRecognitionRepository/Repos/UserRepo.cs:137-161 | the lead of a soft-deleted team still counts as taken, so that lead is offered only as the current lead |
| TeamController.CheckReferences | RewardsAndRecognitionWebAPI/Controllers/TeamController.cs:96-105 | the lead, the manager and the director must each name a user, checked in that order; the first one that fails decides the error |
| TeamController.Create | RewardsAndRecognitionWebAPI/Controllers/TeamController.cs:90-107 | an invalid model or an unresolved reference fails and stores nothing; otherwise the team is appended; key uniqueness is kept |
| TeamController.ReplaceTeam | RewardsAndRecognitionWebAPI/Controllers/TeamController.cs:136 | the row with the team's id is replaced, every other row is kept, and key uniqueness is kept |
| TeamController.Update | RewardsAndRecognitionWebAPI/Controllers/TeamController.cs:111-138 | an id mismatch or a missing team fails before the reference checks and with no change; on success only Name and the three references are copied, while Id and IsDeleted stay |
| TeamController.SoftDelete | RewardsAndRecognitionWebAPI/Controllers/TeamController.cs:142-150 | a missing team is not found and changes nothing; otherwise only the team's IsDeleted is set |
| TeamController.Delete | RewardsAndRecognitionWebAPI/Controllers/TeamController.cs:154-162 | a missing team is not found and changes nothing; otherwise exactly that team's row is removed |
| TeamController.NameThenIdDescendingIsPreorder | RewardsAndRecognitionWebAPI/Controllers/TeamController.cs:58-59 | name descending, then id descending, is a total preorder |
| TeamController.OrderedTeams | RewardsAndRecognitionWebAPI/Controllers/TeamController.cs:50-59 | exactly the teams the deletion filter keeps, by name descending and then id descending |
| TeamController.GetPaged | RewardsAndRecognitionWebAPI/Controllers/TeamController.cs:44-75 | clamped page number and size; the total counts every listed team; deleted teams only when asked; the items are the listed teams, by name descending then id descending, from position (page − 1) × size up to one page size further, cut off at the end |
| Dashboard.CallerUser | RewardsAndRecognitionWebAPI/Controllers/DashboardController.cs:46-50 | the caller resolves exactly when signed in and known, and then to that user's row |
| Dashboard.Visible | RewardsAndRecognitionWebAPI/Controllers/DashboardController.cs:502-523 | Admin sees every non-deleted nomination; a Manager or Director sees the managed-by query; anyone else sees exactly what they wrote, received, or what their team received (nothing when they have no team) |
| Dashboard.PendingFor | RewardsAndRecognitionWebAPI/Controllers/DashboardController.cs:525-538 | a Manager gets the Manager-level pending query and a Director the Director-level one; every other role, or none, gets nothing |
| Dashboard.Newest10 | RewardsAndRecognitionWebAPI/Controllers/DashboardController.cs:64-68 | the ten newest visible nominations (fewer when there are fewer), each taken from the input at most as often as it occurs there, newest first; no nomination left out is newer than one kept |
| Dashboard.Summarize | RewardsAndRecognitionWebAPI/Controllers/DashboardController.cs:56-72 | approved counts both approved statuses and rejected both rejected ones, so approved + rejected ≤ total; the recent list is the ten newest, drawn from the visible list without repeats beyond its own; the pending list is the first ten of the pending query, or all of it when it is shorter |
| Dashboard.GetDashboard | RewardsAndRecognitionWebAPI/Controllers/DashboardController.cs:44-76 | an unknown caller is unauthorized; otherwise the cards summarise what the first role makes visible and pending |
| Dashboard.ApprovedPlusRejectedBounded | RewardsAndRecognitionWebAPI/Controllers/DashboardController.cs:60-62 | no status is both approved and rejected, so the two cards never add up to more than the total |
| Dashboard.ScopedPrelude | RewardsAndRecognitionWebAPI/Controllers/DashboardController.cs:79-98 | the role dashboards refuse a missing caller, a caller without the role, an unknown user, and an empty or non-Guid quarter id, in that order, before computing anything |
| Dashboard.TeamLeadScope | RewardsAndRecognitionWebAPI/Controllers/DashboardController.cs:100-122 | exactly the quarter's non-deleted nominations written by the lead or by a member of a non-deleted team the lead leads |
| Dashboard.GetTeamLeadDashboard | RewardsAndRecognitionWebAPI/Controllers/DashboardController.cs:81-143 | pending counts the nominations the Director has not decided; pending + finalApproved + rejected == total |
| Dashboard.TeamLeadCardsPartition | RewardsAndRecognitionWebAPI/Controllers/DashboardController.cs:124-132 | the pending card is the non-final count, and the three cards partition the scope |
| Dashboard.LevelScope | RewardsAndRecognitionWebAPI/Controllers/DashboardController.cs:168-182 | exactly the quarter's non-deleted nominations whose nominee is on a non-deleted team naming the user at that level; nominees without a team are out; no nomination appears twice |
| Dashboard.DecidedIds | RewardsAndRecognitionWebAPI/Controllers/DashboardController.cs:184-202 | the distinct in-scope nominations with a ledger entry of that level and action |
| Dashboard.DecidedBounded | RewardsAndRecognitionWebAPI/Controllers/DashboardController.cs:184-211 | the distinct decided nominations never outnumber the scope |
| Dashboard.DeletedTeamOutOfScope | RewardsAndRecognitionWebAPI/Controllers/DashboardController.cs:168-182 | a nomination whose nominee's team is soft-deleted is in no Manager or Director scope |
| Dashboard.GetManagerDashboard | RewardsAndRecognitionWebAPI/Controllers/DashboardController.cs:148-222 | approved and rejected count distinct in-scope nominations with a Manager-level entry of that action, not the status field; pending counts PendingManager; each card is at most the total |
| Dashboard.GetDirectorDashboard | RewardsAndRecognitionWebAPI/Controllers/DashboardController.cs:227-305 | pending reviews are the in-scope nominations with no Director-level entry; the final cards count distinct nominations with a Director approval or a Director rejection |
| Dashboard.DirectorCardsAddUp | RewardsAndRecognitionWebAPI/Controllers/DashboardController.cs:184-211 | over a scope without repeated ids, the nominations with no Director decision plus the approved ones plus the rejected ones equal the scope size plus those that are both approved and rejected |
| Dashboard.DirectorCardsReconcile | RewardsAndRecognitionWebAPI/Controllers/DashboardController.cs:263-294 | pending + approved + rejected equals the total plus the nominations holding both a Director approval and a Director rejection; so the sum is at least the total, and equals it exactly when no nomination holds both |
| Dashboard.DoubleDecisionCountsTwice | RewardsAndRecognitionWebAPI/Controllers/DashboardController.cs:263-294 | a nomination in scope with both a Director approval and a Director rejection in the ledger is in both decided sets, so it counts on both final cards |
| Dashboard.GetEmployeeDashboard | RewardsAndRecognitionWebAPI/Controllers/DashboardController.cs:310-344 | an unknown caller is unauthorized; otherwise the caller's non-deleted nominations as nominator or nominee, each listed once per row, newest first, and the newest non-deleted quarter as the active quarter |
| Dashboard.NewestQuarterFirst | RewardsAndRecognitionRepository/Repos/YearQuarterRepo.cs:128-135 | the first quarter of the active listing is the newest non-deleted quarter, and the listing is empty exactly when every quarter is deleted |
| Dashboard.EmployeeQuarterMayBeInactive | RewardsAndRecognitionWebAPI/Controllers/DashboardController.cs:310-344 | when no quarter is active but one is not deleted, the Employee dashboard still shows an active quarter, and that quarter is inactive |

## Left out

- Email sending in `Review` (NominationController.cs:410-466): this is I/O whose exceptions are swallowed. The model keeps only the `emailsDue` flag, true exactly on DirectorApproved.
- The commented-out `ApprovalController`: it is dead code. No review moves a nomination to `PendingDirector`; only `Create`, which keeps a client-supplied status other than Draft, can store it.
- Identity, authentication and host setup: UserManager, SignInManager, role stores, cookies, CORS, seeding, and the Blazor pages and scripts. Roles are a given sequence of names per user. The signed-in user is an optional id. A missing role in `ScopedPrelude` stands for the framework's Forbidden response.
- Persistence:
  - Entity Framework includes, tracking, asynchrony and cancellation are not modelled.
  - The concurrency re-throw in `UpdateApprovalAsync` is not modelled.
  - Each endpoint is one atomic step, including `Review`'s two separate saves.
  - `YearQuarterRepo.Add` is the one place where the source's ordering of database effects is visible, and it is kept: the bulk deactivation happens even when the insert then fails.
- Database errors other than a duplicate primary key are not modelled.
- Timestamps: `DateTime.UtcNow` is an integer supplied by the caller. The date-string formatting in the views is not modelled.
- NominationController.GetPaged: the page is cut at the exact offset (page − 1) × size, not at the source's wrapped 32-bit offset; the wrapped computation is the paging row under Findings.
- TeamController.GetPaged: the page is cut at the exact offset, as above; the wrapped offset of `ToPagedResultAsync` is the paging row under Findings.
- The text search and the textual status filter in the nomination `GetPaged` are not modelled; the list is the role-scoped, deletion-filtered one.
- `Enum.TryParse` also accepts numeric strings. The action input is abstracted as empty, unparseable, or one of the two actions.
- `Dashboard.Visible`: the source's `Distinct()` compares separately loaded objects by reference, so a nomination visible through two of the user's lists may appear twice. The contract states membership only, not freedom from duplicates.
- Model validation attributes on the entity classes and `TeamRepo` are not part of this model. The validation outcome is the `modelValid` parameter. A team soft delete is taken to set IsDeleted on the row.
- Ordering of names: the database collation is modelled as ordinal comparison of characters. `char.IsWhiteSpace` is modelled on characters, and `[StringLength]` counts characters rather than UTF-16 units.
- Guid ordering (the id tie-break in the team list) is modelled as the order of natural numbers.
- These read-only endpoints are not modelled:
  - the dashboard team-list endpoints: `GetManagerTeams`, `GetDirectorTeams`, `GetDirectorManagers`, `GetTeamsByManager` and `GetTeamNominations`;
  - `GetDrafts` and `GetLatestDraft`;
  - the pass-through getters of the nomination controller.
- User add and update, and the hard `DeleteNominationAsync`, are not modelled; they are plain CRUD outside the lifecycle.
- The DTO classes are not modelled, except `UpdateNominationView`, whose required-field and length rules decide `Update`'s first error.

## Findings

| source | as written | input that shows it | evidently intended | confidence | as-written member | corrected member |
|---|---|---|---|---|---|---|
| RewardsAndRecognitionRepository/Data/RepositoryExtensions.cs:31 (the same expression is at RewardsAndRecognitionWebAPI/Controllers/NominationController.cs:120) | the offset `(pageNumber - 1) * pageSize` is computed in unchecked 32-bit `int` arithmetic after clamping, so a large page number wraps around | pageNumber = 536870913, pageSize = 200: the offset 107374182400 wraps to 0, and the first page's items come back under that page number; other page numbers wrap to a negative offset | the offset is the exact product, so a page past the end of the query is empty | not executed | RepositoryExtensions.ToPagedResultAsWritten, RepositoryExtensions.WrappedOffsetReturnsFirstPage | RepositoryExtensions.ToPagedResult, RepositoryExtensions.PageBeyondEndIsEmpty |

=== FILE: approval_repo.dfy ===
/** The approval ledger: the Approvals table and its repository. */
module ApprovalRepo {
  import opened Wrappers
  import opened Seqs
  import opened Ordering
  import opened Domain

  /** ActionAt ascending, and its reverse. */
  function ActionAtAscending(): (Approval, Approval) -> bool
  {
    (a: Approval, b: Approval) => a.actionAt <= b.actionAt
  }

  function ActionAtDescending(): (Approval, Approval) -> bool
  {
    (a: Approval, b: Approval) => a.actionAt >= b.actionAt
  }

  lemma ActionAtOrdersArePreorders()
    ensures TotalPreorder(ActionAtAscending())
    ensures TotalPreorder(ActionAtDescending())
  {
  }

  function GetApprovalById(ledger: seq<Approval>, id: Guid): (r: Option<Approval>)
    ensures r.Some? ==> r.value in ledger && r.value.id == id
    ensures r.None? <==> id !in Image(ledger, ApprovalKey)
  {
    FindFirst(ledger, (a: Approval) => a.id == id)
  }

  /** The entries for one nomination, oldest first. */
  function GetApprovalsByNominationId(ledger: seq<Approval>, nominationId: Guid): (r: seq<Approval>)
    ensures multiset(r) == multiset(Filter(ledger, (a: Approval) => a.nominationId == nominationId))
    ensures forall a :: a in r <==> a in ledger && a.nominationId == nominationId
    ensures SortedBy(r, ActionAtAscending())
  {
    ActionAtOrdersArePreorders();
    var r := SortBy(Filter(ledger, (a: Approval) => a.nominationId == nominationId), ActionAtAscending());
    SortByMembers(Filter(ledger, (a: Approval) => a.nominationId == nominationId), ActionAtAscending());
    r
  }

  /** The entries one approver recorded, newest first. */
  function GetApprovalsByApproverId(ledger: seq<Approval>, approverId: UserId): (r: seq<Approval>)
    ensures multiset(r) == multiset(Filter(ledger, (a: Approval) => a.approverId == approverId))
    ensures forall a :: a in r <==> a in ledger && a.approverId == approverId
    ensures SortedBy(r, ActionAtDescending())
  {
    ActionAtOrdersArePreorders();
    var r := SortBy(Filter(ledger, (a: Approval) => a.approverId == approverId), ActionAtDescending());
    SortByMembers(Filter(ledger, (a: Approval) => a.approverId == approverId), ActionAtDescending());
    r
  }

  /** Appends the record and returns it; a key already in the table is a
      database error that stores nothing. */
  function CreateApproval(ledger: seq<Approval>, approval: Approval): (r: Outcome<seq<Approval>, Approval>)
    ensures r.result.Success? <==> approval.id !in Image(ledger, ApprovalKey)
    ensures r.result.Success? ==> r.state == ledger + [approval] && r.result.value == approval
    ensures r.result.Failure? ==> r.state == ledger && r.result.error == DuplicateKey
    ensures UniqueBy(ledger, ApprovalKey) ==> UniqueBy(r.state, ApprovalKey)
  {
    if approval.id in Image(ledger, ApprovalKey) then Outcome(ledger, Failure(DuplicateKey))
    else
      UniqueByAppendFresh(ledger, approval);
      Outcome(ledger + [approval], Success(approval))
  }

  lemma UniqueByAppendFresh(ledger: seq<Approval>, approval: Approval)
    requires approval.id !in Image(ledger, ApprovalKey)
    ensures UniqueBy(ledger, ApprovalKey) ==> UniqueBy(ledger + [approval], ApprovalKey)
  {
    if UniqueBy(ledger, ApprovalKey) {
      UniqueByAppend(ledger, ApprovalKey, approval);
    }
  }

  /** Replaces the entry with the record's id and reports true; an id absent
      from the table reports false and changes nothing. */
  function UpdateApproval(ledger: seq<Approval>, approval: Approval): (r: (seq<Approval>, bool))
    ensures r.1 <==> approval.id in Image(ledger, ApprovalKey)
    ensures !r.1 ==> r.0 == ledger
    ensures |r.0| == |ledger|
    ensures forall i :: 0 <= i < |ledger| ==>
      r.0[i] == (if ledger[i].id == approval.id then approval else ledger[i])
    ensures r.1 ==> approval in r.0
  {
    if approval.id !in Image(ledger, ApprovalKey) then
      assert forall i :: 0 <= i < |ledger| ==> ApprovalKey(ledger[i]) in Image(ledger, ApprovalKey);
      (ledger, false)
    else
      var updated := UpdateWhere(ledger, (a: Approval) => a.id == approval.id, (a: Approval) => approval);
      assert exists a :: a in ledger && a.id == approval.id;
      (updated, true)
  }

  /** Removes the entry with that id and reports true; an absent id reports
      false and changes nothing. */
  function DeleteApproval(ledger: seq<Approval>, id: Guid): (r: (seq<Approval>, bool))
    ensures r.1 <==> id in Image(ledger, ApprovalKey)
    ensures !r.1 ==> r.0 == ledger
    ensures forall a :: a in r.0 <==> a in ledger && a.id != id
    ensures r.1 && UniqueBy(ledger, ApprovalKey) ==> |r.0| == |ledger| - 1
  {
    if id !in Image(ledger, ApprovalKey) then (ledger, false)
    else
      var kept := Filter(ledger, (a: Approval) => a.id != id);
      DeleteShrinksByOne(ledger, id);
      (kept, true)
  }

  lemma DeleteShrinksByOne(ledger: seq<Approval>, id: Guid)
    requires id in Image(ledger, ApprovalKey)
    ensures UniqueBy(ledger, ApprovalKey) ==> |Filter(ledger, (a: Approval) => a.id != id)| == |ledger| - 1
  {
    var kept := Filter(ledger, (a: Approval) => a.id != id);
    if UniqueBy(ledger, ApprovalKey) {
      ImageCardUnique(ledger, ApprovalKey);
      assert Image(kept, ApprovalKey) == Image(ledger, ApprovalKey) - {id};
      KeptIsUnique(ledger, id);
      ImageCardUnique(kept, ApprovalKey);
    }
  }

  lemma KeptIsUnique(ledger: seq<Approval>, id: Guid)
    requires UniqueBy(ledger, ApprovalKey)
    ensures UniqueBy(Filter(ledger, (a: Approval) => a.id != id), ApprovalKey)
  {
    FilterKeepsUnique(ledger, ApprovalKey, (a: Approval) => a.id != id);
  }

  /** Whether the approver has any entry for the nomination, whatever its
      action or level. */
  predicate ApproverHasAlreadyApproved(ledger: seq<Approval>, approverId: UserId, nominationId: Guid)
  {
    exists a :: a in ledger && a.approverId == approverId && a.nominationId == nominationId
  }

  /** Recording an entry makes the duplicate check true for its approver and
      nomination, and leaves it unchanged for everyone else. */
  lemma CreateThenAlreadyApproved(ledger: seq<Approval>, approval: Approval, approverId: UserId, nominationId: Guid)
    requires CreateApproval(ledger, approval).result.Success?
    ensures ApproverHasAlreadyApproved(CreateApproval(ledger, approval).state, approval.approverId, approval.nominationId)
    ensures (approverId, nominationId) != (approval.approverId, approval.nominationId) ==>
      (ApproverHasAlreadyApproved(CreateApproval(ledger, approval).state, approverId, nominationId)
       <==> ApproverHasAlreadyApproved(ledger, approverId, nominationId))
  {
    var l' := CreateApproval(ledger, approval).state;
    assert approval in l';
    assert forall a :: a in l' <==> a in ledger || a == approval;
  }

  /** The duplicate check agrees with the per-nomination query: it holds iff
      some entry returned for the nomination names the approver. */
  lemma AlreadyApprovedMatchesQuery(ledger: seq<Approval>, approverId: UserId, nominationId: Guid)
    ensures ApproverHasAlreadyApproved(ledger, approverId, nominationId)
      <==> exists a :: a in GetApprovalsByNominationId(ledger, nominationId) && a.approverId == approverId
  {
  }
}

=== FILE: dashboard.dfy ===
/** The dashboards. The generic dashboard counts the caller's visible
    nominations by their status field; the TeamLead dashboard counts a
    quarter's nominations by status; the Manager and Director dashboards
    count distinct in-scope nominations that have ledger entries of their
    level. */
module Dashboard {
  import opened Wrappers
  import opened Seqs
  import opened Ordering
  import opened Domain
  import opened NominationRepo
  import opened NominationStatusHelper
  import YearQuarterRepo

  /** A query-string Guid: null or empty, not a Guid, or a Guid. */
  datatype GuidInput = Blank | Malformed | Parsed(id: Guid)

  /** The signed-in caller's user row, if the caller resolves to one. */
  function CallerUser(st: Store, caller: Option<UserId>): (r: Option<User>)
    ensures r.Some? ==> caller.Some? && r.value in st.users && r.value.id == caller.value
    ensures r.None? <==> caller.None? || FindUser(st.users, caller.value).None?
  {
    if caller.None? then None else FindUser(st.users, caller.value)
  }

  // ---------------------------------------------------------------------
  // Generic dashboard

  /** `GetVisibleNominationsAsync`. Admin sees every non-deleted nomination;
      Director and Manager see the managed-by query; everyone else sees the
      concatenation of what they nominated, what they received and what
      their team received (nothing when they have no team). The source's
      `Distinct()` compares separately loaded objects by reference, so a
      nomination in two of the lists may appear twice. */
  function Visible(st: Store, user: User, role: Option<string>): (r: seq<Nomination>)
    ensures role == Some("Admin") ==> forall n :: n in r <==> n in st.nominations && !n.isDeleted
    ensures role == Some("Director") || role == Some("Manager") ==>
      forall n :: n in r <==> n in st.nominations && ManagedBy(st, user.id, n)
    ensures role != Some("Admin") && role != Some("Director") && role != Some("Manager") ==>
      forall n :: n in r <==> (n in st.nominations && !n.isDeleted &&
        (n.nominatorId == user.id || n.nomineeId == user.id || (user.teamId.Some? && NomineeTeamId(st, n) == user.teamId)))
    ensures forall n :: n in r ==> n in st.nominations && !n.isDeleted
  {
    if role == Some("Admin") then GetAllNominations(st, false)
    else if role == Some("Director") || role == Some("Manager") then GetNominationsForTeamsManagedByUser(st, user.id)
    else
      var personal := GetNominationsByNominator(st, user.id);
      var received := GetNominationsForNominee(st, user.id);
      var team := if user.teamId.Some? then GetNominationsByTeam(st, user.teamId.value) else [];
      personal + received + team
  }

  /** `GetPendingApprovalNominationsAsync`: only Managers and Directors have
      anything pending. */
  function PendingFor(st: Store, userId: UserId, role: Option<string>): (r: seq<Nomination>)
    ensures role == Some("Manager") ==> forall n :: n in r <==> n in st.nominations && PendingManagerFor(st, userId, n)
    ensures role == Some("Director") ==> forall n :: n in r <==> n in st.nominations && PendingDirectorFor(st, userId, n)
    ensures role != Some("Manager") && role != Some("Director") ==> r == []
  {
    if role == Some("Manager") then GetNominationsPendingManagerApprovalForUser(st, userId)
    else if role == Some("Director") then GetNominationsPendingDirectorApprovalForUser(st, userId)
    else []
  }

  predicate IsApprovedStatus(s: NominationStatus) { s == ManagerApproved || s == DirectorApproved }
  predicate IsRejectedStatus(s: NominationStatus) { s == ManagerRejected || s == DirectorRejected }

  datatype DashboardView = DashboardView(
    totalNominations: nat,
    approvedNominations: nat,
    rejectedNominations: nat,
    pendingApprovals: nat,
    recentNominations: seq<Nomination>,
    pendingApprovalNominations: seq<Nomination>)

  /** The ten newest of `s` (fewer when `s` is shorter). */
  function Newest10(s: seq<Nomination>): (r: seq<Nomination>)
    ensures |r| == if |s| < 10 then |s| else 10
    ensures forall n :: n in r ==> n in s
    ensures multiset(r) <= multiset(s)
    ensures forall i, j :: 0 <= i < j < |r| ==> r[i].createdAt >= r[j].createdAt
    ensures forall n, m :: n in s && n !in r && m in r ==> m.createdAt >= n.createdAt
  {
    CreatedAtDescendingIsPreorder();
    var sorted := SortBy(s, CreatedAtDescending());
    SortByMembers(s, CreatedAtDescending());
    var r := Take(sorted, 10);
    forall n, m | n in s && n !in r && m in r ensures m.createdAt >= n.createdAt {
      var k :| 0 <= k < |sorted| && sorted[k] == n;
      var i :| 0 <= i < |r| && r[i] == m;
      assert k >= |r|;
      assert CreatedAtDescending()(sorted[i], sorted[k]);
    }
    assert forall i, j :: 0 <= i < j < |r| ==> CreatedAtDescending()(sorted[i], sorted[j]);
    r
  }

  /** The cards and lists of the generic dashboard, from the visible and the
      pending nominations. */
  function Summarize(visible: seq<Nomination>, pending: seq<Nomination>): (v: DashboardView)
    ensures v.totalNominations == |visible|
    ensures v.approvedNominations == Count(visible, (n: Nomination) => IsApprovedStatus(n.status))
    ensures v.rejectedNominations == Count(visible, (n: Nomination) => IsRejectedStatus(n.status))
    ensures v.approvedNominations + v.rejectedNominations <= v.totalNominations
    ensures v.pendingApprovals == |pending|
    ensures |v.recentNominations| == (if |visible| < 10 then |visible| else 10)
    ensures forall n :: n in v.recentNominations ==> n in visible
    ensures multiset(v.recentNominations) <= multiset(visible)
    ensures forall i, j :: 0 <= i < j < |v.recentNominations| ==>
      v.recentNominations[i].createdAt >= v.recentNominations[j].createdAt
    ensures forall n, m :: n in visible && n !in v.recentNominations && m in v.recentNominations ==>
      m.createdAt >= n.createdAt
    ensures |v.pendingApprovalNominations| == (if |pending| < 10 then |pending| else 10)
    ensures forall i :: 0 <= i < |v.pendingApprovalNominations| ==> v.pendingApprovalNominations[i] == pending[i]
  {
    ApprovedPlusRejectedBounded(visible);
    DashboardView(
      |visible|,
      Count(visible, (n: Nomination) => IsApprovedStatus(n.status)),
      Count(visible, (n: Nomination) => IsRejectedStatus(n.status)),
      |pending|,
      Newest10(visible),
      Take(pending, 10))
  }

  /** GET api/dashboard: only a signed-in, known user gets a dashboard, built
      from what the user's first role makes visible and pending. */
  function GetDashboard(st: Store, caller: Option<UserId>): (r: Result<DashboardView, Error>)
    ensures r.Failure? <==> CallerUser(st, caller).None?
    ensures r.Failure? ==> r.error == Unauthorized
    ensures r.Success? ==>
      var user := CallerUser(st, caller).value;
      var role := FirstRole(st, user.id);
      r.value == Summarize(Visible(st, user, role), PendingFor(st, user.id, role))
  {
    match CallerUser(st, caller)
    case None => Failure(Unauthorized)
    case Some(user) =>
      var role := FirstRole(st, user.id);
      Success(Summarize(Visible(st, user, role), PendingFor(st, user.id, role)))
  }

  /** No status is both approved and rejected, so the two cards never add up
      to more than the total. */
  lemma ApprovedPlusRejectedBounded(s: seq<Nomination>)
    ensures Count(s, (n: Nomination) => IsApprovedStatus(n.status)) + Count(s, (n: Nomination) => IsRejectedStatus(n.status)) <= |s|
  {
    var a := (n: Nomination) => IsApprovedStatus(n.status);
    var b := (n: Nomination) => IsRejectedStatus(n.status);
    var u := (n: Nomination) => IsApprovedStatus(n.status) || IsRejectedStatus(n.status);
    CountDisjointUnion(s, a, b, u);
    CountPartition(s, u, (n: Nomination) => !u(n));
  }

  // ---------------------------------------------------------------------
  // Role dashboards: shared checks

  /** The checks every role dashboard makes before computing: a signed-in
      caller holding the role, a known user, then a present, well-formed
      quarter id. */
  function ScopedPrelude(st: Store, caller: Option<UserId>, role: string, quarter: GuidInput): (r: Result<(User, Guid), Error>)
    ensures caller.None? ==> r == Failure(Unauthorized)
    ensures caller.Some? && role !in RolesOf(st, caller.value) ==> r == Failure(Forbidden)
    ensures caller.Some? && role in RolesOf(st, caller.value) && FindUser(st.users, caller.value).None? ==> r == Failure(Unauthorized)
    ensures CallerUser(st, caller).Some? && role in RolesOf(st, caller.value) && quarter.Blank? ==>
      r == Failure(YearQuarterIdRequired)
    ensures CallerUser(st, caller).Some? && role in RolesOf(st, caller.value) && quarter.Malformed? ==>
      r == Failure(InvalidYearQuarterId)
    ensures r.Success? <==> CallerUser(st, caller).Some? && role in RolesOf(st, caller.value) && quarter.Parsed?
    ensures r.Success? ==> r.value == (CallerUser(st, caller).value, quarter.id)
  {
    if caller.None? then Failure(Unauthorized)
    else if role !in RolesOf(st, caller.value) then Failure(Forbidden)
    else match FindUser(st.users, caller.value)
      case None => Failure(Unauthorized)
      case Some(user) =>
        match quarter
        case Blank => Failure(YearQuarterIdRequired)
        case Malformed => Failure(InvalidYearQuarterId)
        case Parsed(q) => Success((user, q))
  }

  // ---------------------------------------------------------------------
  // TeamLead dashboard

  /** Ids of the non-deleted teams `lead` leads. */
  function LeadTeamIds(st: Store, lead: UserId): set<Guid>
  {
    set t | t in st.teams && t.teamLeadId == Some(lead) && !t.isDeleted :: t.id
  }

  /** The lead and every user, deleted or not, on one of the lead's teams. */
  predicate InLeadCircle(st: Store, lead: UserId, u: UserId)
  {
    u == lead || exists m :: m in st.users && m.id == u && m.teamId.Some? && m.teamId.value in LeadTeamIds(st, lead)
  }

  /** The quarter's non-deleted nominations written by the lead's circle. */
  function TeamLeadScope(st: Store, lead: UserId, quarterId: Guid): (r: seq<Nomination>)
    ensures forall n :: n in r <==>
      n in st.nominations && !n.isDeleted && n.yearQuarterId == quarterId && InLeadCircle(st, lead, n.nominatorId)
  {
    Filter(st.nominations, (n: Nomination) => !n.isDeleted && n.yearQuarterId == quarterId && InLeadCircle(st, lead, n.nominatorId))
  }

  datatype TeamLeadStats = TeamLeadStats(total: nat, pending: nat, finalApproved: nat, rejected: nat)

  /** GET api/dashboard/TeamLead. Pending counts everything the Director has
      not decided yet; the three cards partition the total. */
  function GetTeamLeadDashboard(st: Store, caller: Option<UserId>, quarter: GuidInput): (r: Result<TeamLeadStats, Error>)
    ensures r.Failure? <==> ScopedPrelude(st, caller, "TeamLead", quarter).Failure?
    ensures r.Failure? ==> r.error == ScopedPrelude(st, caller, "TeamLead", quarter).error
    ensures r.Success? ==>
      var scope := TeamLeadScope(st, caller.value, quarter.id);
      var v := r.value;
      && v.total == |scope|
      && v.pending == Count(scope, (n: Nomination) => !IsFinalState(n.status))
      && v.finalApproved == Count(scope, (n: Nomination) => n.status == DirectorApproved)
      && v.rejected == Count(scope, (n: Nomination) => n.status == DirectorRejected)
      && v.pending + v.finalApproved + v.rejected == v.total
  {
    match ScopedPrelude(st, caller, "TeamLead", quarter)
    case Failure(e) => Failure(e)
    case Success((user, q)) =>
      var scope := TeamLeadScope(st, user.id, q);
      var pending := Count(scope, (n: Nomination) => n.status != DirectorApproved && n.status != DirectorRejected);
      var approved := Count(scope, (n: Nomination) => n.status == DirectorApproved);
      var rejected := Count(scope, (n: Nomination) => n.status == DirectorRejected);
      TeamLeadCardsPartition(scope);
      Success(TeamLeadStats(|scope|, pending, approved, rejected))
  }

  lemma TeamLeadCardsPartition(scope: seq<Nomination>)
    ensures Count(scope, (n: Nomination) => n.status != DirectorApproved && n.status != DirectorRejected)
         == Count(scope, (n: Nomination) => !IsFinalState(n.status))
    ensures Count(scope, (n: Nomination) => n.status != DirectorApproved && n.status != DirectorRejected)
      + Count(scope, (n: Nomination) => n.status == DirectorApproved)
      + Count(scope, (n: Nomination) => n.status == DirectorRejected) == |scope|
  {
    var pending := (n: Nomination) => n.status != DirectorApproved && n.status != DirectorRejected;
    var approved := (n: Nomination) => n.status == DirectorApproved;
    var rejected := (n: Nomination) => n.status == DirectorRejected;
    var final := (n: Nomination) => n.status == DirectorApproved || n.status == DirectorRejected;
    FilterCongruent(scope, pending, (n: Nomination) => !IsFinalState(n.status));
    CountDisjointUnion(scope, approved, rejected, final);
    CountPartition(scope, final, pending);
  }

  // ---------------------------------------------------------------------
  // Manager and Director dashboards

  /** Ids of the non-deleted teams naming `u` at `level`. */
  function LevelTeamIds(st: Store, u: UserId, level: ApprovalLevel): set<Guid>
  {
    set t | t in st.teams && !t.isDeleted
      && (if level == Manager then t.managerId == Some(u) else t.directorId == Some(u)) :: t.id
  }

  /** The quarter's non-deleted nominations whose nominee is on one of those
      teams; nominees without a team are out of scope. */
  function LevelScope(st: Store, u: UserId, level: ApprovalLevel, quarterId: Guid): (r: seq<Nomination>)
    ensures forall n :: n in r <==>
      && n in st.nominations && !n.isDeleted && n.yearQuarterId == quarterId
      && NomineeTeamId(st, n).Some? && NomineeTeamId(st, n).value in LevelTeamIds(st, u, level)
    ensures WellFormed(st) ==> UniqueBy(r, NominationKey)
  {
    var p := (n: Nomination) => !n.isDeleted && n.yearQuarterId == quarterId
      && NomineeTeamId(st, n).Some? && NomineeTeamId(st, n).value in LevelTeamIds(st, u, level);
    NominationFilterUnique(st, p);
    Filter(st.nominations, p)
  }

  lemma NominationFilterUnique(st: Store, p: Nomination -> bool)
    ensures WellFormed(st) ==> UniqueBy(Filter(st.nominations, p), NominationKey)
  {
    if WellFormed(st) { FilterKeepsUnique(st.nominations, NominationKey, p); }
  }

  /** The distinct in-scope nomination ids with a ledger entry of `level`
      and `action`. */
  function DecidedIds(ledger: seq<Approval>, scope: seq<Nomination>, level: ApprovalLevel, action: ApprovalAction): (r: set<Guid>)
    ensures r <= Image(scope, NominationKey)
    ensures forall id :: id in r <==>
      id in Image(scope, NominationKey) && exists a :: a in ledger && a.nominationId == id && a.level == level && a.action == action
  {
    set a | a in ledger && a.nominationId in Image(scope, NominationKey) && a.level == level && a.action == action :: a.nominationId
  }

  lemma SubsetCard<T>(a: set<T>, b: set<T>)
    requires a <= b
    ensures |a| <= |b|
  {
    assert b == a + (b - a);
  }

  /** The distinct decided nominations never outnumber the scope. */
  lemma DecidedBounded(ledger: seq<Approval>, scope: seq<Nomination>, level: ApprovalLevel, action: ApprovalAction)
    ensures |DecidedIds(ledger, scope, level, action)| <= |scope|
  {
    SubsetCard(DecidedIds(ledger, scope, level, action), Image(scope, NominationKey));
    ImageCard(scope, NominationKey);
  }

  /** A nomination whose nominee's team is soft-deleted is in no Manager or
      Director scope, whoever the team names. */
  lemma DeletedTeamOutOfScope(st: Store, u: UserId, level: ApprovalLevel, quarterId: Guid, n: Nomination)
    requires UniqueBy(st.teams, TeamKey)
    requires NomineeTeam(st, n).Some? && NomineeTeam(st, n).value.isDeleted
    ensures n !in LevelScope(st, u, level, quarterId)
  {
    var team := NomineeTeam(st, n).value;
    if NomineeTeamId(st, n).value in LevelTeamIds(st, u, level) {
      var t :| t in st.teams && !t.isDeleted && t.id == team.id
        && (if level == Manager then t.managerId == Some(u) else t.directorId == Some(u));
      UniqueKeyMember(st.teams, TeamKey, t, team);
    }
  }

  datatype ManagerStats = ManagerStats(total: nat, pendingManagerApproval: nat, managerApproved: nat, managerRejected: nat)

  /** GET api/dashboard/Manager. The approved and rejected cards count
      distinct nominations with a Manager-level entry of that action, not
      the status field. */
  function GetManagerDashboard(st: Store, caller: Option<UserId>, quarter: GuidInput): (r: Result<ManagerStats, Error>)
    ensures r.Failure? <==> ScopedPrelude(st, caller, "Manager", quarter).Failure?
    ensures r.Failure? ==> r.error == ScopedPrelude(st, caller, "Manager", quarter).error
    ensures r.Success? ==>
      var scope := LevelScope(st, caller.value, Manager, quarter.id);
      var v := r.value;
      && v.total == |scope|
      && v.pendingManagerApproval == Count(scope, (n: Nomination) => n.status == PendingManager)
      && v.managerApproved == |DecidedIds(st.approvals, scope, Manager, Approved)|
      && v.managerRejected == |DecidedIds(st.approvals, scope, Manager, Rejected)|
      && v.pendingManagerApproval <= v.total
      && v.managerApproved <= v.total
      && v.managerRejected <= v.total
  {
    match ScopedPrelude(st, caller, "Manager", quarter)
    case Failure(e) => Failure(e)
    case Success((user, q)) =>
      var scope := LevelScope(st, user.id, Manager, q);
      DecidedBounded(st.approvals, scope, Manager, Approved);
      DecidedBounded(st.approvals, scope, Manager, Rejected);
      Success(ManagerStats(
        |scope|,
        Count(scope, (n: Nomination) => n.status == PendingManager),
        |DecidedIds(st.approvals, scope, Manager, Approved)|,
        |DecidedIds(st.approvals, scope, Manager, Rejected)|))
  }

  datatype DirectorStats = DirectorStats(total: nat, pendingReviews: nat, finalApproved: nat, finalRejected: nat)

  /** GET api/dashboard/Director. Pending reviews are the in-scope
      nominations with no Director-level entry at all. */
  function GetDirectorDashboard(st: Store, caller: Option<UserId>, quarter: GuidInput): (r: Result<DirectorStats, Error>)
    ensures r.Failure? <==> ScopedPrelude(st, caller, "Director", quarter).Failure?
    ensures r.Failure? ==> r.error == ScopedPrelude(st, caller, "Director", quarter).error
    ensures r.Success? ==>
      var scope := LevelScope(st, caller.value, Director, quarter.id);
      var approved := DecidedIds(st.approvals, scope, Director, Approved);
      var rejected := DecidedIds(st.approvals, scope, Director, Rejected);
      var v := r.value;
      && v.total == |scope|
      && v.pendingReviews == Count(scope, (n: Nomination) => n.id !in approved + rejected)
      && v.finalApproved == |approved|
      && v.finalRejected == |rejected|
  {
    match ScopedPrelude(st, caller, "Director", quarter)
    case Failure(e) => Failure(e)
    case Success((user, q)) =>
      var scope := LevelScope(st, user.id, Director, q);
      var approved := DecidedIds(st.approvals, scope, Director, Approved);
      var rejected := DecidedIds(st.approvals, scope, Director, Rejected);
      Success(DirectorStats(|scope|, Count(scope, (n: Nomination) => n.id !in approved + rejected), |approved|, |rejected|))
  }

  lemma UnionCard<T>(a: set<T>, b: set<T>)
    ensures |a + b| + |a * b| == |a| + |b|
  {
    assert a + b == a + (b - a);
    assert a * (b - a) == {};
    assert b == (b - a) + (a * b);
    assert (b - a) * (a * b) == {};
  }

  /** Over a key-unique scope, the nominations with no Director entry plus
      the distinct approved plus the distinct rejected ones are the scope's
      size plus the nominations carrying both an approval and a rejection. */
  lemma DirectorCardsAddUp(ledger: seq<Approval>, scope: seq<Nomination>)
    requires UniqueBy(scope, NominationKey)
    ensures var approved := DecidedIds(ledger, scope, Director, Approved);
      var rejected := DecidedIds(ledger, scope, Director, Rejected);
      Count(scope, (n: Nomination) => n.id !in approved + rejected) + |approved| + |rejected|
        == |scope| + |approved * rejected|
  {
    var approved := DecidedIds(ledger, scope, Director, Approved);
    var rejected := DecidedIds(ledger, scope, Director, Rejected);
    CountKeyOutside(scope, NominationKey, approved + rejected, (n: Nomination) => n.id !in approved + rejected);
    UnionCard(approved, rejected);
  }

  /** The Director cards reconcile with the total up to the nominations that
      carry both a Director approval and a Director rejection (a Director
      may review the same nomination again): the three cards add up to the
      total plus that overlap, so at least the total, and exactly the total
      iff no nomination has both. */
  lemma DirectorCardsReconcile(st: Store, caller: Option<UserId>, quarter: GuidInput)
    requires WellFormed(st)
    requires GetDirectorDashboard(st, caller, quarter).Success?
    ensures var v := GetDirectorDashboard(st, caller, quarter).value;
      var scope := LevelScope(st, caller.value, Director, quarter.id);
      var both := DecidedIds(st.approvals, scope, Director, Approved) * DecidedIds(st.approvals, scope, Director, Rejected);
      && v.pendingReviews + v.finalApproved + v.finalRejected == v.total + |both|
      && v.pendingReviews + v.finalApproved + v.finalRejected >= v.total
      && (v.pendingReviews + v.finalApproved + v.finalRejected == v.total <==> both == {})
  {
    DirectorCardsAddUp(st.approvals, LevelScope(st, caller.value, Director, quarter.id));
  }

  /** A nomination in scope that the Director approved and also rejected is
      counted on both final cards. */
  lemma DoubleDecisionCountsTwice(ledger: seq<Approval>, scope: seq<Nomination>, n: Nomination, a1: Approval, a2: Approval)
    requires n in scope
    requires a1 in ledger && a1.nominationId == n.id && a1.level == Director && a1.action == Approved
    requires a2 in ledger && a2.nominationId == n.id && a2.level == Director && a2.action == Rejected
    ensures n.id in DecidedIds(ledger, scope, Director, Approved) * DecidedIds(ledger, scope, Director, Rejected)
  {
    assert n.id in Image(scope, NominationKey);
  }

  // ---------------------------------------------------------------------
  // Employee dashboard

  datatype EmployeeView = EmployeeView(nominations: seq<Nomination>, activeQuarter: Option<YearQuarter>)

  /** GET api/dashboard/Employee: the caller's non-deleted nominations as
      nominator or nominee, newest first, and the first quarter of the
      "active" listing, which is the newest non-deleted quarter whether or
      not it is active. */
  function GetEmployeeDashboard(st: Store, caller: Option<UserId>): (r: Result<EmployeeView, Error>)
    ensures r.Failure? <==> CallerUser(st, caller).None?
    ensures r.Failure? ==> r.error == Unauthorized
    ensures r.Success? ==>
      var u := caller.value;
      var v := r.value;
      && (forall n :: n in v.nominations <==>
            n in st.nominations && !n.isDeleted && (n.nominatorId == u || n.nomineeId == u))
      && |v.nominations| == Count(st.nominations, (n: Nomination) => !n.isDeleted && (n.nominatorId == u || n.nomineeId == u))
      && (forall i, j :: 0 <= i < j < |v.nominations| ==> v.nominations[i].createdAt >= v.nominations[j].createdAt)
      && (v.activeQuarter.Some? <==> exists q :: q in st.quarters && !q.isDeleted)
      && (v.activeQuarter.Some? ==> v.activeQuarter.value in st.quarters && !v.activeQuarter.value.isDeleted)
      && (v.activeQuarter.Some? ==> forall q :: q in st.quarters && !q.isDeleted ==>
            v.activeQuarter.value.year > q.year
            || (v.activeQuarter.value.year == q.year && v.activeQuarter.value.quarter >= q.quarter))
  {
    match CallerUser(st, caller)
    case None => Failure(Unauthorized)
    case Some(user) =>
      var u := user.id;
      var mine := Filter(GetAllNominations(st, false), (n: Nomination) => n.nominatorId == u || n.nomineeId == u);
      CreatedAtDescendingIsPreorder();
      SortByMembers(mine, CreatedAtDescending());
      var ordered := SortBy(mine, CreatedAtDescending());
      OwnNominationsCount(st, u);
      assert forall i, j :: 0 <= i < j < |ordered| ==> CreatedAtDescending()(ordered[i], ordered[j]);
      var listing := YearQuarterRepo.GetActive(st.quarters);
      NewestQuarterFirst(st.quarters);
      Success(EmployeeView(ordered, if |listing| == 0 then None else Some(listing[0])))
  }

  /** The caller's nominations, taken from the non-deleted ones, are counted
      by one filter over the table. */
  lemma OwnNominationsCount(st: Store, u: UserId)
    ensures |Filter(GetAllNominations(st, false), (n: Nomination) => n.nominatorId == u || n.nomineeId == u)|
      == Count(st.nominations, (n: Nomination) => !n.isDeleted && (n.nominatorId == u || n.nomineeId == u))
  {
    FilterTwice(st.nominations, (n: Nomination) => !n.isDeleted, (n: Nomination) => n.nominatorId == u || n.nomineeId == u,
      (n: Nomination) => !n.isDeleted && (n.nominatorId == u || n.nomineeId == u));
  }

  lemma NewestQuarterFirst(qs: seq<YearQuarter>)
    ensures var l := YearQuarterRepo.GetActive(qs);
      && (|l| > 0 <==> exists q :: q in qs && !q.isDeleted)
      && (|l| > 0 ==> forall q :: q in qs && !q.isDeleted ==>
            l[0].year > q.year || (l[0].year == q.year && l[0].quarter >= q.quarter))
  {
    var l := YearQuarterRepo.GetActive(qs);
    forall q | q in qs && !q.isDeleted ensures |l| > 0 {
      assert q in l;
    }
    if |l| > 0 {
      forall q | q in qs && !q.isDeleted
        ensures l[0].year > q.year || (l[0].year == q.year && l[0].quarter >= q.quarter)
      {
        assert q in l;
        var k :| 0 <= k < |l| && l[k] == q;
      }
      assert l[0] in l;
    }
  }

  /** When no quarter is active but one is not deleted, the Employee
      dashboard still shows an "active" quarter, and it is inactive. */
  lemma EmployeeQuarterMayBeInactive(st: Store, caller: Option<UserId>)
    requires CallerUser(st, caller).Some?
    requires exists q :: q in st.quarters && !q.isDeleted
    requires forall q :: q in st.quarters ==> !q.isActive
    ensures GetEmployeeDashboard(st, caller).value.activeQuarter.Some?
    ensures !GetEmployeeDashboard(st, caller).value.activeQuarter.value.isActive
  {
  }
}

=== FILE: domain.dfy ===
/** The entities of the rewards-and-recognition application and the store
    that holds them. Each table is a sequence of rows in storage order;
    primary keys are unique (`WellFormed`). Guids are abstract naturals and
    Identity user ids are strings. */
module Domain {
  import opened Wrappers
  import opened Seqs

  type Guid = nat
  type UserId = string

  /** The seven lifecycle states, in declaration order; `Draft` is the
      enum's default value. */
  datatype NominationStatus =
    | Draft
    | PendingManager
    | PendingDirector
    | ManagerApproved
    | ManagerRejected
    | DirectorApproved
    | DirectorRejected

  datatype ApprovalAction = Approved | Rejected

  datatype ApprovalLevel = Manager | Director

  datatype Nomination = Nomination(
    id: Guid,
    nominatorId: UserId,
    nomineeId: UserId,
    categoryId: Guid,
    yearQuarterId: Guid,
    description: string,
    achievements: string,
    status: NominationStatus,
    createdAt: int,
    isDeleted: bool)

  /** One ledger entry: a single approve/reject action by one approver. */
  datatype Approval = Approval(
    id: Guid,
    nominationId: Guid,
    approverId: UserId,
    action: ApprovalAction,
    level: ApprovalLevel,
    actionAt: int,
    remarks: Option<string>)

  datatype User = User(
    id: UserId,
    name: string,
    email: string,
    teamId: Option<Guid>,
    isActive: bool,
    isDeleted: bool)

  /** The three role references are nullable in the source. */
  datatype Team = Team(
    id: Guid,
    name: string,
    teamLeadId: Option<UserId>,
    managerId: Option<UserId>,
    directorId: Option<UserId>,
    isDeleted: bool)

  datatype Date = Date(year: int, month: int, day: int)

  /** A reporting period; `quarter` holds the raw value of the Quarter enum
      (Q1 = 1 .. Q4 = 4), which may be out of range. */
  datatype YearQuarter = YearQuarter(
    id: Guid,
    year: int,
    quarter: int,
    startDate: Option<Date>,
    endDate: Option<Date>,
    isActive: bool,
    isDeleted: bool)

  datatype Category = Category(id: Guid, name: string, isDeleted: bool)

  /** The database: one sequence per table, plus each user's role names in the
      order the identity store returns them. */
  datatype Store = Store(
    nominations: seq<Nomination>,
    approvals: seq<Approval>,
    users: seq<User>,
    teams: seq<Team>,
    quarters: seq<YearQuarter>,
    categories: seq<Category>,
    roles: map<UserId, seq<string>>)

  /** Every error the modelled endpoints and repositories report. */
  datatype Error =
    | BodyMissing
    | ActionRequired
    | UserIdRequired
    | NominationNotFound
    | UserNotFound
    | TeamLeadCannotReview
    | InvalidAction
    | NoReviewRole
    | IdMismatch
    | NotFound
    | NotDraft
    | NominatorRequired
    | InvalidModel
    | DuplicateKey
    | Unauthorized
    | Forbidden
    | YearQuarterIdRequired
    | InvalidYearQuarterId
    | InvalidTeamLeadId
    | InvalidManagerId
    | InvalidDirectorId

  /** The state after an operation together with what it returned. */
  datatype Outcome<S, T> = Outcome(state: S, result: Result<T, Error>)

  function NominationKey(n: Nomination): Guid { n.id }
  function ApprovalKey(a: Approval): Guid { a.id }
  function UserKey(u: User): UserId { u.id }
  function TeamKey(t: Team): Guid { t.id }
  function QuarterKey(q: YearQuarter): Guid { q.id }
  function CategoryKey(c: Category): Guid { c.id }

  /** Primary keys are unique in every table. */
  predicate WellFormed(st: Store)
  {
    && UniqueBy(st.nominations, NominationKey)
    && UniqueBy(st.approvals, ApprovalKey)
    && UniqueBy(st.users, UserKey)
    && UniqueBy(st.teams, TeamKey)
    && UniqueBy(st.quarters, QuarterKey)
    && UniqueBy(st.categories, CategoryKey)
  }

  function FindNomination(ns: seq<Nomination>, id: Guid): (r: Option<Nomination>)
    ensures r.Some? ==> r.value in ns && r.value.id == id
    ensures r.None? ==> forall n :: n in ns ==> n.id != id
  {
    FindFirst(ns, (n: Nomination) => n.id == id)
  }

  function FindUser(us: seq<User>, id: UserId): (r: Option<User>)
    ensures r.Some? ==> r.value in us && r.value.id == id
    ensures r.None? ==> forall u :: u in us ==> u.id != id
  {
    FindFirst(us, (u: User) => u.id == id)
  }

  function FindTeam(ts: seq<Team>, id: Guid): (r: Option<Team>)
    ensures r.Some? ==> r.value in ts && r.value.id == id
    ensures r.None? ==> forall t :: t in ts ==> t.id != id
  {
    FindFirst(ts, (t: Team) => t.id == id)
  }

  /** With unique keys, the lookup returns the one row with that key. */
  lemma FindNominationUnique(ns: seq<Nomination>, n: Nomination)
    requires UniqueBy(ns, NominationKey)
    requires n in ns
    ensures FindNomination(ns, n.id) == Some(n)
  {
    var r := FindNomination(ns, n.id);
    UniqueKeyMember(ns, NominationKey, r.value, n);
  }

  /** The role names the identity store holds for `u` (none if it holds no entry). */
  function RolesOf(st: Store, u: UserId): seq<string>
  {
    if u in st.roles then st.roles[u] else []
  }

  /** `roles.FirstOrDefault()`: the role the dashboards and paged lists act on. */
  function FirstRole(st: Store, u: UserId): (r: Option<string>)
    ensures r.Some? <==> |RolesOf(st, u)| > 0
    ensures r.Some? ==> r.value == RolesOf(st, u)[0] && r.value in RolesOf(st, u)
  {
    var rs := RolesOf(st, u);
    if |rs| == 0 then None else Some(rs[0])
  }

  /** The nominee's team id (`n.Nominee.TeamId`); None when the nominee row is
      missing or has no team. */
  function NomineeTeamId(st: Store, n: Nomination): Option<Guid>
  {
    match FindUser(st.users, n.nomineeId)
    case None => None
    case Some(u) => u.teamId
  }

  /** The nominee's team row (`n.Nominee.Team`), whatever its IsDeleted flag. */
  function NomineeTeam(st: Store, n: Nomination): (r: Option<Team>)
    ensures r.Some? ==> NomineeTeamId(st, n) == Some(r.value.id) && r.value in st.teams
    ensures NomineeTeamId(st, n).Some? && NomineeTeamId(st, n).value in Image(st.teams, TeamKey) ==> r.Some?
  {
    match NomineeTeamId(st, n)
    case None => None
    case Some(t) => FindTeam(st.teams, t)
  }
}

=== FILE: nomination_controller.dfy ===
/** The nomination endpoints: creating, drafting, editing and reviewing
    nominations, and the role-scoped paged list. Each endpoint is one atomic
    step from a store to a store plus its response. */
module NominationController {
  import opened Wrappers
  import opened Seqs
  import opened Ordering
  import opened Domain
  import opened ApprovalRepo
  import opened NominationRepo
  import RepositoryExtensions

  /** `char.IsWhiteSpace`: the Unicode space, line and paragraph separators
      plus the control characters U+0009..U+000D and U+0085. */
  predicate IsWhiteSpace(c: char)
  {
    var k := c as int;
    || (9 <= k <= 13) || k == 0x20 || k == 0x85 || k == 0xA0 || k == 0x1680
    || (0x2000 <= k <= 0x200A) || k == 0x2028 || k == 0x2029 || k == 0x202F
    || k == 0x205F || k == 0x3000
  }

  /** `string.IsNullOrWhiteSpace`, with null written as the empty string. */
  predicate IsBlank(s: string)
  {
    forall i :: 0 <= i < |s| ==> IsWhiteSpace(s[i])
  }

  function WithStatus(n: Nomination, s: NominationStatus): Nomination { n.(status := s) }

  /** Adds a nomination row; a key already present is a database error. */
  function AddNomination(st: Store, n: Nomination): (r: Outcome<Store, Nomination>)
    ensures r.result.Success? <==> n.id !in Image(st.nominations, NominationKey)
    ensures r.result.Success? ==> r.state == st.(nominations := st.nominations + [n]) && r.result.value == n
    ensures r.result.Failure? ==> r.state == st && r.result.error == DuplicateKey
    ensures WellFormed(st) ==> WellFormed(r.state)
  {
    if n.id in Image(st.nominations, NominationKey) then Outcome(st, Failure(DuplicateKey))
    else
      AppendKeepsUnique(st.nominations, n);
      Outcome(st.(nominations := st.nominations + [n]), Success(n))
  }

  lemma AppendKeepsUnique(ns: seq<Nomination>, n: Nomination)
    requires n.id !in Image(ns, NominationKey)
    ensures UniqueBy(ns, NominationKey) ==> UniqueBy(ns + [n], NominationKey)
  {
    if UniqueBy(ns, NominationKey) {
      UniqueByAppend(ns, NominationKey, n);
    }
  }

  /** POST api/nomination. `modelValid` is the outcome of model validation.
      The enum's default (`Draft`) is replaced by `PendingManager`; any other
      supplied status is stored as given. */
  function Create(st: Store, n: Nomination, modelValid: bool, now: int): (r: Outcome<Store, Nomination>)
    ensures !modelValid ==> r == Outcome(st, Failure(InvalidModel))
    ensures r.result.Success? <==> modelValid && n.id !in Image(st.nominations, NominationKey)
    ensures r.result.Failure? ==> r.state == st
    ensures r.result.Success? ==>
      var m := r.result.value;
      && r.state == st.(nominations := st.nominations + [m])
      && m.status != Draft
      && (n.status != Draft ==> m.status == n.status)
      && (n.status == Draft ==> m.status == PendingManager)
      && m.createdAt == now
      && m == n.(status := m.status, createdAt := now)
    ensures WellFormed(st) ==> WellFormed(r.state)
  {
    if !modelValid then Outcome(st, Failure(InvalidModel))
    else
      var status := if n.status == Draft then PendingManager else n.status;
      AddNomination(st, n.(status := status, createdAt := now))
  }

  /** POST api/nomination/draft: only the nominator is required; the stored
      status is `Draft` whatever was supplied. */
  function SaveDraft(st: Store, n: Nomination, modelValid: bool, now: int): (r: Outcome<Store, Nomination>)
    ensures modelValid && IsBlank(n.nominatorId) ==> r == Outcome(st, Failure(NominatorRequired))
    ensures r.result.Success? <==>
      modelValid && !IsBlank(n.nominatorId) && n.id !in Image(st.nominations, NominationKey)
    ensures r.result.Failure? ==> r.state == st
    ensures r.result.Success? ==>
      && r.state == st.(nominations := st.nominations + [r.result.value])
      && r.result.value == n.(status := Draft, createdAt := now)
    ensures WellFormed(st) ==> WellFormed(r.state)
  {
    if !modelValid then Outcome(st, Failure(InvalidModel))
    else if IsBlank(n.nominatorId) then Outcome(st, Failure(NominatorRequired))
    else AddNomination(st, n.(status := Draft, createdAt := now))
  }

  /** Replaces the row with the nomination's id. */
  function ReplaceNomination(st: Store, n: Nomination): (r: Store)
    ensures r == st.(nominations := r.nominations)
    ensures |r.nominations| == |st.nominations|
    ensures forall i :: 0 <= i < |st.nominations| ==>
      r.nominations[i] == (if st.nominations[i].id == n.id then n else st.nominations[i])
    ensures WellFormed(st) ==> WellFormed(r)
  {
    var f := (m: Nomination) => n;
    var p := (m: Nomination) => m.id == n.id;
    ReplaceKeepsUnique(st.nominations, n);
    st.(nominations := UpdateWhere(st.nominations, p, f))
  }

  lemma ReplaceKeepsUnique(ns: seq<Nomination>, n: Nomination)
    ensures UniqueBy(ns, NominationKey) ==>
      UniqueBy(UpdateWhere(ns, (m: Nomination) => m.id == n.id, (m: Nomination) => n), NominationKey)
  {
    var r := UpdateWhere(ns, (m: Nomination) => m.id == n.id, (m: Nomination) => n);
    if UniqueBy(ns, NominationKey) {
      forall i, j | 0 <= i < j < |r| ensures r[i].id != r[j].id {
        assert r[i].id == ns[i].id && r[j].id == ns[j].id;
      }
    }
  }

  /** PUT api/nomination/draft/{id}: only a Draft may be edited, and only its
      nominee, category, quarter, description and achievements change. */
  function UpdateDraft(st: Store, id: Guid, n: Nomination, modelValid: bool): (r: Outcome<Store, Nomination>)
    ensures r.result.Failure? ==> r.state == st
    ensures modelValid && id != n.id ==> r.result == Failure(IdMismatch)
    ensures modelValid && id == n.id && FindNomination(st.nominations, id).None? ==> r.result == Failure(NotFound)
    ensures (modelValid && id == n.id && FindNomination(st.nominations, id).Some?
             && FindNomination(st.nominations, id).value.status != Draft) ==> r.result == Failure(NotDraft)
    ensures r.result.Success? <==>
      modelValid && id == n.id && FindNomination(st.nominations, id).Some?
      && FindNomination(st.nominations, id).value.status == Draft
    ensures r.result.Success? ==>
      var old_ := FindNomination(st.nominations, id).value;
      var m := r.result.value;
      && m == old_.(nomineeId := n.nomineeId, categoryId := n.categoryId, yearQuarterId := n.yearQuarterId,
                    description := n.description, achievements := n.achievements)
      && m.status == Draft && m.id == id
      && r.state == ReplaceNomination(st, m)
  {
    if !modelValid then Outcome(st, Failure(InvalidModel))
    else if id != n.id then Outcome(st, Failure(IdMismatch))
    else match FindNomination(st.nominations, id)
      case None => Outcome(st, Failure(NotFound))
      case Some(existing) =>
        if existing.status != Draft then Outcome(st, Failure(NotDraft))
        else
          var m := existing.(nomineeId := n.nomineeId, categoryId := n.categoryId, yearQuarterId := n.yearQuarterId,
                             description := n.description, achievements := n.achievements, status := Draft);
          Outcome(ReplaceNomination(st, m), Success(m))
  }

  /** The edit form of `Update`; null fields are None. */
  datatype UpdateNominationView = UpdateNominationView(
    id: Guid,
    categoryId: Option<Guid>,
    yearQuarterId: Option<Guid>,
    description: Option<string>,
    achievements: Option<string>)

  /** `[Required]` rejects null and blank strings; `[StringLength(2000)]`
      bounds the length. */
  predicate RequiredText(s: Option<string>)
  {
    s.Some? && !IsBlank(s.value) && |s.value| <= 2000
  }

  predicate ValidUpdateView(dto: UpdateNominationView)
  {
    dto.categoryId.Some? && dto.yearQuarterId.Some? && RequiredText(dto.description) && RequiredText(dto.achievements)
  }

  /** PUT api/nomination/{id}: rewrites category, quarter, description and
      achievements of any nomination, whatever its status or deletion flag. */
  function Update(st: Store, id: Guid, dto: UpdateNominationView): (r: Outcome<Store, Nomination>)
    ensures r.result.Failure? ==> r.state == st
    ensures !ValidUpdateView(dto) ==> r.result == Failure(InvalidModel)
    ensures ValidUpdateView(dto) && id != dto.id ==> r.result == Failure(IdMismatch)
    ensures r.result.Success? <==> ValidUpdateView(dto) && id == dto.id && FindNomination(st.nominations, id).Some?
    ensures r.result.Success? ==>
      var old_ := FindNomination(st.nominations, id).value;
      var m := r.result.value;
      && m == old_.(categoryId := dto.categoryId.value, yearQuarterId := dto.yearQuarterId.value,
                    description := dto.description.value, achievements := dto.achievements.value)
      && m.status == old_.status && m.nomineeId == old_.nomineeId && m.isDeleted == old_.isDeleted
      && r.state == ReplaceNomination(st, m)
  {
    if !ValidUpdateView(dto) then Outcome(st, Failure(InvalidModel))
    else if id != dto.id then Outcome(st, Failure(IdMismatch))
    else match FindNomination(st.nominations, id)
      case None => Outcome(st, Failure(NotFound))
      case Some(existing) =>
        var m := existing.(categoryId := dto.categoryId.value, yearQuarterId := dto.yearQuarterId.value,
                           description := dto.description.value, achievements := dto.achievements.value);
        Outcome(ReplaceNomination(st, m), Success(m))
  }

  // ---------------------------------------------------------------------
  // Review

  /** The request's action string: missing or empty, not a name of
      ApprovalAction, or one of its two values. */
  datatype ActionInput = Empty | Unparseable | Parses(action: ApprovalAction)

  datatype ReviewRequest = ReviewRequest(action: ActionInput, remarks: Option<string>, userId: UserId)

  /** The new status, the ledger entry written, and whether the two
      congratulation emails are due. */
  datatype ReviewResult = ReviewResult(status: NominationStatus, approval: Approval, emailsDue: bool)

  /** The status a decision of `level` with `action` stands for. */
  function DecisionStatus(level: ApprovalLevel, action: ApprovalAction): NominationStatus
  {
    match (level, action)
    case (Manager, Approved) => ManagerApproved
    case (Manager, Rejected) => ManagerRejected
    case (Director, Approved) => DirectorApproved
    case (Director, Rejected) => DirectorRejected
  }

  /** The decision a status records, if it records one. */
  function DecisionOf(s: NominationStatus): (r: Option<(ApprovalLevel, ApprovalAction)>)
    ensures r.Some? ==> DecisionStatus(r.value.0, r.value.1) == s
  {
    match s
    case ManagerApproved => Some((Manager, Approved))
    case ManagerRejected => Some((Manager, Rejected))
    case DirectorApproved => Some((Director, Approved))
    case DirectorRejected => Some((Director, Rejected))
    case _ => None
  }

  lemma DecisionRoundTrip(level: ApprovalLevel, action: ApprovalAction)
    ensures DecisionOf(DecisionStatus(level, action)) == Some((level, action))
  {
  }

  /** Everything `Review` checks before it looks at roles. */
  predicate ReviewTargetsResolve(st: Store, id: Guid, request: Option<ReviewRequest>)
  {
    && request.Some?
    && !request.value.action.Empty?
    && |request.value.userId| > 0
    && FindNomination(st.nominations, id).Some?
    && FindUser(st.users, request.value.userId).Some?
  }

  /** POST api/nomination/{id}/review. The outcome depends on the caller's
      roles and the action only: the nomination's current status, whether it
      is final and any earlier ledger entries are not consulted. */
  function Review(st: Store, id: Guid, request: Option<ReviewRequest>, approvalId: Guid, now: int): (r: Outcome<Store, ReviewResult>)
    ensures r.result.Failure? ==> r.state == st
    ensures request.None? ==> r.result == Failure(BodyMissing)
    ensures request.Some? && request.value.action.Empty? ==> r.result == Failure(ActionRequired)
    ensures request.Some? && !request.value.action.Empty? && |request.value.userId| == 0 ==> r.result == Failure(UserIdRequired)
    ensures (request.Some? && !request.value.action.Empty? && |request.value.userId| > 0
             && FindNomination(st.nominations, id).None?) ==> r.result == Failure(NominationNotFound)
    ensures (request.Some? && !request.value.action.Empty? && |request.value.userId| > 0
             && FindNomination(st.nominations, id).Some? && FindUser(st.users, request.value.userId).None?) ==>
      r.result == Failure(UserNotFound)
    ensures ReviewTargetsResolve(st, id, request) && "TeamLead" in RolesOf(st, request.value.userId) ==>
      r.result == Failure(TeamLeadCannotReview)
    ensures (ReviewTargetsResolve(st, id, request) && "TeamLead" !in RolesOf(st, request.value.userId)
             && request.value.action.Unparseable?) ==> r.result == Failure(InvalidAction)
    ensures (ReviewTargetsResolve(st, id, request) && "TeamLead" !in RolesOf(st, request.value.userId)
             && request.value.action.Parses?
             && "Manager" !in RolesOf(st, request.value.userId) && "Director" !in RolesOf(st, request.value.userId)) ==>
      r.result == Failure(NoReviewRole)
    ensures r.result.Success? <==>
      && ReviewTargetsResolve(st, id, request)
      && request.value.action.Parses?
      && "TeamLead" !in RolesOf(st, request.value.userId)
      && ("Manager" in RolesOf(st, request.value.userId) || "Director" in RolesOf(st, request.value.userId))
      && approvalId !in Image(st.approvals, ApprovalKey)
    ensures r.result.Success? ==>
      var req := request.value;
      var roles := RolesOf(st, req.userId);
      var res := r.result.value;
      var a := res.approval;
      && a == Approval(approvalId, id, req.userId, req.action.action, a.level, now, req.remarks)
      && (a.level == Manager <==> "Manager" in roles)
      && res.status == DecisionStatus(a.level, a.action)
      && res.status !in {Draft, PendingManager, PendingDirector}
      && (res.emailsDue <==> res.status == DirectorApproved)
      && r.state.approvals == st.approvals + [a]
      && r.state == ReplaceNomination(st, WithStatus(FindNomination(st.nominations, id).value, res.status)).(approvals := r.state.approvals)
  {
    if request.None? then Outcome(st, Failure(BodyMissing))
    else
      var req := request.value;
      if req.action.Empty? then Outcome(st, Failure(ActionRequired))
      else if |req.userId| == 0 then Outcome(st, Failure(UserIdRequired))
      else match FindNomination(st.nominations, id)
        case None => Outcome(st, Failure(NominationNotFound))
        case Some(nomination) =>
          match FindUser(st.users, req.userId)
          case None => Outcome(st, Failure(UserNotFound))
          case Some(user) =>
            var roles := RolesOf(st, user.id);
            if "TeamLead" in roles then Outcome(st, Failure(TeamLeadCannotReview))
            else if !req.action.Parses? then Outcome(st, Failure(InvalidAction))
            else if "Manager" !in roles && "Director" !in roles then Outcome(st, Failure(NoReviewRole))
            else
              var action := req.action.action;
              var level := if "Manager" in roles then Manager else Director;
              var status := if "Manager" in roles
                then (if action == Approved then ManagerApproved else ManagerRejected)
                else (if action == Approved then DirectorApproved else DirectorRejected);
              var approval := Approval(approvalId, id, user.id, action, level, now, req.remarks);
              var written := CreateApproval(st.approvals, approval);
              if written.result.Failure? then Outcome(st, Failure(DuplicateKey))
              else
                var st' := ReplaceNomination(st, WithStatus(nomination, status));
                Outcome(st'.(approvals := written.state), Success(ReviewResult(status, approval, status == DirectorApproved)))
  }

  /** Review keeps primary keys unique. */
  lemma ReviewKeepsWellFormed(st: Store, id: Guid, request: Option<ReviewRequest>, approvalId: Guid, now: int)
    requires WellFormed(st)
    ensures WellFormed(Review(st, id, request, approvalId, now).state)
  {
    var r := Review(st, id, request, approvalId, now);
    if r.result.Success? {
      var n := FindNomination(st.nominations, id).value;
      var st' := ReplaceNomination(st, WithStatus(n, r.result.value.status));
      assert WellFormed(st');
      UniqueByAppend(st.approvals, ApprovalKey, r.result.value.approval);
    }
  }

  /** Overwrites the stored status of nomination `id`. */
  function SetStatus(st: Store, id: Guid, s: NominationStatus): Store
  {
    st.(nominations := UpdateWhere(st.nominations, (m: Nomination) => m.id == id, (m: Nomination) => m.(status := s)))
  }

  lemma {:induction false} FindAfterSetStatus(ns: seq<Nomination>, id: Guid, s: NominationStatus)
    ensures var ns' := UpdateWhere(ns, (m: Nomination) => m.id == id, (m: Nomination) => m.(status := s));
      && FindNomination(ns', id).Some? == FindNomination(ns, id).Some?
      && (FindNomination(ns, id).Some? ==> FindNomination(ns', id).value == FindNomination(ns, id).value.(status := s))
    decreases |ns|
  {
    var ns' := UpdateWhere(ns, (m: Nomination) => m.id == id, (m: Nomination) => m.(status := s));
    if |ns| > 0 {
      FindAfterSetStatus(ns[1..], id, s);
      assert ns'[1..] == UpdateWhere(ns[1..], (m: Nomination) => m.id == id, (m: Nomination) => m.(status := s));
    }
  }

  /** Whatever the nomination's current status, final states included, the
      same request gets the same response and the same ledger entry. */
  lemma ReviewIgnoresCurrentStatus(st: Store, id: Guid, request: Option<ReviewRequest>, approvalId: Guid, now: int, s: NominationStatus)
    ensures Review(SetStatus(st, id, s), id, request, approvalId, now).result == Review(st, id, request, approvalId, now).result
  {
    FindAfterSetStatus(st.nominations, id, s);
  }

  /** A Director (without the Manager role) may review a nomination the
      Director has already approved: the review succeeds again, flips or
      repeats the final decision, and appends a further ledger entry. */
  lemma DirectorReviewsFinalizedNomination(st: Store, n: Nomination, user: User, action: ApprovalAction, approvalId: Guid, now: int)
    requires WellFormed(st)
    requires n in st.nominations && n.status == DirectorApproved
    requires user in st.users && |user.id| > 0 && RolesOf(st, user.id) == ["Director"]
    requires approvalId !in Image(st.approvals, ApprovalKey)
    ensures var r := Review(st, n.id, Some(ReviewRequest(Parses(action), None, user.id)), approvalId, now);
      && r.result.Success?
      && r.result.value.status == (if action == Approved then DirectorApproved else DirectorRejected)
      && r.result.value.approval.level == Director
      && |r.state.approvals| == |st.approvals| + 1
  {
    FindNominationUnique(st.nominations, n);
    var u := FindUser(st.users, user.id).value;
    UniqueKeyMember(st.users, UserKey, u, user);
  }

  /** No duplicate-approval guard: after a successful review the approver is
      on record for the nomination, and the identical request with a fresh
      entry id succeeds a second time. */
  lemma ReviewTwiceSucceeds(st: Store, id: Guid, request: Option<ReviewRequest>, approvalId: Guid, approvalId2: Guid, now: int)
    requires Review(st, id, request, approvalId, now).result.Success?
    requires approvalId2 != approvalId && approvalId2 !in Image(st.approvals, ApprovalKey)
    ensures var st1 := Review(st, id, request, approvalId, now).state;
      && ApproverHasAlreadyApproved(st1.approvals, request.value.userId, id)
      && Review(st1, id, request, approvalId2, now).result.Success?
      && |Review(st1, id, request, approvalId2, now).state.approvals| == |st.approvals| + 2
  {
    var r1 := Review(st, id, request, approvalId, now);
    var st1 := r1.state;
    assert r1.result.value.approval in st1.approvals;
    FindAfterReplace(st.nominations, id, WithStatus(FindNomination(st.nominations, id).value, r1.result.value.status));
    assert st1.users == st.users && st1.roles == st.roles;
    assert Image(st1.approvals, ApprovalKey) == Image(st.approvals, ApprovalKey) + {approvalId};
  }

  lemma {:induction false} FindAfterReplace(ns: seq<Nomination>, id: Guid, n: Nomination)
    requires n.id == id
    ensures var ns' := UpdateWhere(ns, (m: Nomination) => m.id == n.id, (m: Nomination) => n);
      FindNomination(ns', id).Some? == FindNomination(ns, id).Some?
    decreases |ns|
  {
    var ns' := UpdateWhere(ns, (m: Nomination) => m.id == n.id, (m: Nomination) => n);
    if |ns| > 0 {
      FindAfterReplace(ns[1..], id, n);
      assert ns'[1..] == UpdateWhere(ns[1..], (m: Nomination) => m.id == n.id, (m: Nomination) => n);
    }
  }

  // ---------------------------------------------------------------------
  // Paged list

  /** The first-role filter of the paged list: a Director or Manager sees the
      nominations whose nominee's non-deleted team names them in that role;
      any other caller, or none, is not filtered. */
  predicate PagedRoleScope(st: Store, caller: Option<UserId>, n: Nomination)
  {
    if caller.None? || FindUser(st.users, caller.value).None? then true
    else
      var u := caller.value;
      var role := FirstRole(st, u);
      var team := NomineeTeam(st, n);
      if role == Some("Director") then team.Some? && team.value.directorId == Some(u) && !team.value.isDeleted
      else if role == Some("Manager") then team.Some? && team.value.managerId == Some(u) && !team.value.isDeleted
      else true
  }

  /** A nomination is listed when the role filter keeps it and it is not
      deleted, unless deleted rows were asked for. */
  predicate InPagedList(st: Store, caller: Option<UserId>, includeDeleted: bool, n: Nomination)
  {
    PagedRoleScope(st, caller, n) && (includeDeleted || !n.isDeleted)
  }

  /** The listed nominations, newest first. */
  function PagedCandidates(st: Store, caller: Option<UserId>, includeDeleted: bool): (r: seq<Nomination>)
    ensures SortedBy(r, CreatedAtDescending())
    ensures |r| == Count(st.nominations, (n: Nomination) => InPagedList(st, caller, includeDeleted, n))
    ensures forall n :: n in r <==> n in st.nominations && InPagedList(st, caller, includeDeleted, n)
  {
    var scoped := Filter(st.nominations, (n: Nomination) => InPagedList(st, caller, includeDeleted, n));
    CreatedAtDescendingIsPreorder();
    SortByMembers(scoped, CreatedAtDescending());
    SortBy(scoped, CreatedAtDescending())
  }

  /** GET api/nomination/paged without the text filters. */
  function GetPaged(st: Store, caller: Option<UserId>, pageNumber: RepositoryExtensions.Int32,
                    pageSize: RepositoryExtensions.Int32, includeDeleted: bool): (r: RepositoryExtensions.PagedResult<Nomination>)
    ensures r.pageNumber == RepositoryExtensions.ClampPageNumber(pageNumber)
    ensures r.pageSize == RepositoryExtensions.ClampPageSize(pageSize)
    ensures |r.items| <= r.pageSize
    ensures r.totalCount == Count(st.nominations, (n: Nomination) => InPagedList(st, caller, includeDeleted, n))
    ensures forall n :: n in r.items ==> n in st.nominations && InPagedList(st, caller, includeDeleted, n)
    ensures forall i, j :: 0 <= i < j < |r.items| ==> r.items[i].createdAt >= r.items[j].createdAt
    ensures var q := PagedCandidates(st, caller, includeDeleted);
      var m := RepositoryExtensions.Offset(RepositoryExtensions.ClampPageNumber(pageNumber), RepositoryExtensions.ClampPageSize(pageSize));
      r.items == q[RepositoryExtensions.Min(m, |q|)..RepositoryExtensions.Min(m + RepositoryExtensions.ClampPageSize(pageSize), |q|)]
  {
    var ordered := PagedCandidates(st, caller, includeDeleted);
    var r := RepositoryExtensions.ToPagedResult(ordered, pageNumber, pageSize);
    RepositoryExtensions.PageIsSlice(ordered, pageNumber, pageSize);
    RepositoryExtensions.PageKeepsOrder(ordered, pageNumber, pageSize, CreatedAtDescending());
    assert forall i, j :: 0 <= i < j < |r.items| ==> CreatedAtDescending()(r.items[i], r.items[j]);
    r
  }
}

=== FILE: nomination_repo.dfy ===
/** The nomination repository: soft delete and the query predicates the
    controllers build their views from. Every query keeps the table's order. */
module NominationRepo {
  import opened Wrappers
  import opened Seqs
  import opened Ordering
  import opened Domain

  /** Manager-level pending for `approverId`: waiting on the manager of the
      nominee's team. */
  predicate PendingManagerFor(st: Store, approverId: UserId, n: Nomination)
  {
    && !n.isDeleted
    && n.status == PendingManager
    && NomineeTeam(st, n).Some?
    && NomineeTeam(st, n).value.managerId == Some(approverId)
  }

  /** Director-level pending for `approverId`: waiting on the director of the
      nominee's team. */
  predicate PendingDirectorFor(st: Store, approverId: UserId, n: Nomination)
  {
    && !n.isDeleted
    && n.status == PendingDirector
    && NomineeTeam(st, n).Some?
    && NomineeTeam(st, n).value.directorId == Some(approverId)
  }

  /** The nominee's team names `userId` as its manager or director (the team's
      own IsDeleted flag is not consulted). */
  predicate ManagedBy(st: Store, userId: UserId, n: Nomination)
  {
    && !n.isDeleted
    && NomineeTeam(st, n).Some?
    && (NomineeTeam(st, n).value.managerId == Some(userId)
        || NomineeTeam(st, n).value.directorId == Some(userId))
  }

  /** Newest first (`OrderByDescending(n => n.CreatedAt)`). */
  function CreatedAtDescending(): (Nomination, Nomination) -> bool
  {
    (a: Nomination, b: Nomination) => a.createdAt >= b.createdAt
  }

  lemma CreatedAtDescendingIsPreorder()
    ensures TotalPreorder(CreatedAtDescending())
  {
  }

  function GetAllNominations(st: Store, includeDeleted: bool): (r: seq<Nomination>)
    ensures forall n :: n in r <==> n in st.nominations && (includeDeleted || !n.isDeleted)
    ensures includeDeleted ==> r == st.nominations
  {
    if includeDeleted then st.nominations
    else Filter(st.nominations, (n: Nomination) => !n.isDeleted)
  }

  function GetNominationsByNominator(st: Store, userId: UserId): (r: seq<Nomination>)
    ensures forall n :: n in r <==> n in st.nominations && !n.isDeleted && n.nominatorId == userId
  {
    Filter(st.nominations, (n: Nomination) => n.nominatorId == userId && !n.isDeleted)
  }

  function GetNominationsForNominee(st: Store, userId: UserId): (r: seq<Nomination>)
    ensures forall n :: n in r <==> n in st.nominations && !n.isDeleted && n.nomineeId == userId
  {
    Filter(st.nominations, (n: Nomination) => n.nomineeId == userId && !n.isDeleted)
  }

  function GetPendingNominationsForApprover(st: Store, approverId: UserId): (r: seq<Nomination>)
    ensures forall n :: n in r <==>
      n in st.nominations && (PendingManagerFor(st, approverId, n) || PendingDirectorFor(st, approverId, n))
  {
    Filter(st.nominations, (n: Nomination) =>
      !n.isDeleted
      && ((n.status == PendingManager && NomineeTeam(st, n).Some? && NomineeTeam(st, n).value.managerId == Some(approverId))
          || (n.status == PendingDirector && NomineeTeam(st, n).Some? && NomineeTeam(st, n).value.directorId == Some(approverId))))
  }

  function GetNominationsForTeamsManagedByUser(st: Store, userId: UserId): (r: seq<Nomination>)
    ensures forall n :: n in r <==> n in st.nominations && ManagedBy(st, userId, n)
  {
    Filter(st.nominations, (n: Nomination) =>
      !n.isDeleted && NomineeTeam(st, n).Some?
      && (NomineeTeam(st, n).value.managerId == Some(userId) || NomineeTeam(st, n).value.directorId == Some(userId)))
  }

  function GetNominationsByTeam(st: Store, teamId: Guid): (r: seq<Nomination>)
    ensures forall n :: n in r <==> n in st.nominations && !n.isDeleted && NomineeTeamId(st, n) == Some(teamId)
  {
    Filter(st.nominations, (n: Nomination) => !n.isDeleted && NomineeTeamId(st, n) == Some(teamId))
  }

  function GetNominationsPendingManagerApprovalForUser(st: Store, userId: UserId): (r: seq<Nomination>)
    ensures forall n :: n in r <==> n in st.nominations && PendingManagerFor(st, userId, n)
  {
    Filter(st.nominations, (n: Nomination) =>
      !n.isDeleted && n.status == PendingManager && NomineeTeam(st, n).Some? && NomineeTeam(st, n).value.managerId == Some(userId))
  }

  function GetNominationsPendingDirectorApprovalForUser(st: Store, userId: UserId): (r: seq<Nomination>)
    ensures forall n :: n in r <==> n in st.nominations && PendingDirectorFor(st, userId, n)
  {
    Filter(st.nominations, (n: Nomination) =>
      !n.isDeleted && n.status == PendingDirector && NomineeTeam(st, n).Some? && NomineeTeam(st, n).value.directorId == Some(userId))
  }

  /** The combined pending query is exactly the union of the manager-level and
      director-level queries, which split it by status. */
  lemma PendingSplitsByStatus(st: Store, approverId: UserId)
    ensures forall n :: n in GetPendingNominationsForApprover(st, approverId) <==>
      n in GetNominationsPendingManagerApprovalForUser(st, approverId)
      || n in GetNominationsPendingDirectorApprovalForUser(st, approverId)
    ensures forall n :: n in GetNominationsPendingManagerApprovalForUser(st, approverId) ==>
      n in GetPendingNominationsForApprover(st, approverId) && n.status == PendingManager
    ensures forall n :: n in GetNominationsPendingDirectorApprovalForUser(st, approverId) ==>
      n in GetPendingNominationsForApprover(st, approverId) && n.status == PendingDirector
  {
  }

  /** A nominee without a team is never pending for anyone. */
  lemma TeamlessNomineeNeverPending(st: Store, n: Nomination, approverId: UserId)
    requires NomineeTeamId(st, n).None?
    ensures n !in GetPendingNominationsForApprover(st, approverId)
  {
  }

  /** Whatever is pending for an approver is also among the nominations of
      the teams they manage or direct. */
  lemma PendingIsManaged(st: Store, approverId: UserId)
    ensures forall n :: n in GetPendingNominationsForApprover(st, approverId) ==>
      n in GetNominationsForTeamsManagedByUser(st, approverId)
  {
  }

  /** The distinct category ids of non-deleted nominations. */
  function GetUsedCategoryIds(st: Store): (r: set<Guid>)
    ensures forall c :: c in r <==> exists n :: n in st.nominations && !n.isDeleted && n.categoryId == c
  {
    var live := Filter(st.nominations, (n: Nomination) => !n.isDeleted);
    set n | n in live :: n.categoryId
  }

  /** The non-deleted categories some non-deleted nomination uses. */
  function GetUniqueCategories(st: Store): (r: seq<Category>)
    ensures forall c :: c in r <==> c in st.categories && !c.isDeleted && c.id in GetUsedCategoryIds(st)
  {
    var used := GetUsedCategoryIds(st);
    Filter(st.categories, (c: Category) => c.id in used && !c.isDeleted)
  }

  /** Marks the nomination deleted; a missing or already deleted id is a no-op. */
  function SoftDeleteNomination(st: Store, id: Guid): (r: Store)
    ensures (forall n :: n in st.nominations ==> n.id != id || n.isDeleted) ==> r == st
    ensures r == st.(nominations := r.nominations)
    ensures |r.nominations| == |st.nominations|
    ensures forall i :: 0 <= i < |st.nominations| ==>
      r.nominations[i] == (if st.nominations[i].id == id then st.nominations[i].(isDeleted := true) else st.nominations[i])
    ensures forall n :: n in r.nominations && n.id == id ==> n.isDeleted
    ensures WellFormed(st) ==> WellFormed(r)
  {
    match FindNomination(st.nominations, id)
    case None => st
    case Some(n) =>
      if n.isDeleted && UniqueBy(st.nominations, NominationKey) then
        assert forall i :: 0 <= i < |st.nominations| && st.nominations[i].id == id ==> st.nominations[i] == n by {
          forall i | 0 <= i < |st.nominations| && st.nominations[i].id == id ensures st.nominations[i] == n {
            UniqueKeyMember(st.nominations, NominationKey, st.nominations[i], n);
          }
        }
        assert UpdateWhere(st.nominations, (m: Nomination) => m.id == id, (m: Nomination) => m.(isDeleted := true)) == st.nominations;
        st
      else
        var f := (m: Nomination) => m.(isDeleted := true);
        UniqueByUpdateNominations(st.nominations, (m: Nomination) => m.id == id, f);
        st.(nominations := UpdateWhere(st.nominations, (m: Nomination) => m.id == id, f))
  }

  lemma UniqueByUpdateNominations(ns: seq<Nomination>, p: Nomination -> bool, f: Nomination -> Nomination)
    requires forall x :: f(x).id == x.id
    ensures UniqueBy(ns, NominationKey) ==> UniqueBy(UpdateWhere(ns, p, f), NominationKey)
  {
    if UniqueBy(ns, NominationKey) {
      UniqueByUpdate(ns, NominationKey, p, f);
    }
  }

  /** Deleting twice is deleting once. */
  lemma SoftDeleteIdempotent(st: Store, id: Guid)
    ensures SoftDeleteNomination(SoftDeleteNomination(st, id), id) == SoftDeleteNomination(st, id)
  {
  }

  /** Once soft-deleted, a nomination leaves every default query. */
  lemma SoftDeletedLeavesQueries(st: Store, id: Guid, userId: UserId)
    ensures forall n :: n in GetAllNominations(SoftDeleteNomination(st, id), false) ==> n.id != id
    ensures forall n :: n in GetNominationsByNominator(SoftDeleteNomination(st, id), userId) ==> n.id != id
    ensures forall n :: n in GetPendingNominationsForApprover(SoftDeleteNomination(st, id), userId) ==> n.id != id
  {
  }
}

=== FILE: ordering.dfy ===
/** Orderings for the source's `OrderBy`/`OrderByDescending`/`ThenBy...`
    calls: a stable insertion sort over any total preorder, and the ordinal
    (character-code) order on strings. */
module Ordering {

  /** `le` is total and transitive, so it can drive a sort. */
  ghost predicate TotalPreorder<T(!new)>(le: (T, T) -> bool)
  {
    && (forall a, b :: le(a, b) || le(b, a))
    && (forall a, b, c :: le(a, b) && le(b, c) ==> le(a, c))
  }

  /** Every element is `le` every later element. */
  predicate SortedBy<T>(s: seq<T>, le: (T, T) -> bool)
  {
    forall i, j :: 0 <= i < j < |s| ==> le(s[i], s[j])
  }

  /** Inserts `x` before the first element it is `le` to, so that equal
      elements keep their original relative order. */
  function InsertSorted<T(!new)>(x: T, s: seq<T>, le: (T, T) -> bool): (r: seq<T>)
    requires TotalPreorder(le)
    requires SortedBy(s, le)
    ensures SortedBy(r, le)
    ensures multiset(r) == multiset(s) + multiset{x}
    ensures |r| == |s| + 1
    decreases |s|
  {
    if |s| == 0 then [x]
    else if le(x, s[0]) then
      assert forall y :: y in s ==> le(s[0], y) by {
        forall y | y in s ensures le(s[0], y) {
          var k :| 0 <= k < |s| && s[k] == y;
          if k > 0 { assert le(s[0], s[k]); }
        }
      }
      assert s == [s[0]] + s[1..];
      assert multiset(s) == multiset(s[1..]) + multiset{s[0]};
      ConsSorted(x, s, le, s[0], s[1..]);
      [x] + s
    else
      var rest := InsertSorted(x, s[1..], le);
      assert SortedBy(s[1..], le);
      assert forall y :: y in s[1..] ==> le(s[0], y) by {
        forall y | y in s[1..] ensures le(s[0], y) {
          var k :| 0 <= k < |s[1..]| && s[1..][k] == y;
          assert s[k + 1] == y;
        }
      }
      ConsSorted(s[0], rest, le, x, s[1..]);
      assert s == [s[0]] + s[1..];
      [s[0]] + rest
  }

  /** `h` may head `rest` when it is `le` to every element of it; here those
      elements are `x` and the elements of `t`. */
  lemma ConsSorted<T(!new)>(h: T, rest: seq<T>, le: (T, T) -> bool, x: T, t: seq<T>)
    requires TotalPreorder(le)
    requires SortedBy(rest, le)
    requires multiset(rest) == multiset(t) + multiset{x}
    requires le(h, x)
    requires forall y :: y in t ==> le(h, y)
    ensures SortedBy([h] + rest, le)
  {
    forall j | 0 <= j < |rest| ensures le(h, rest[j]) {
      assert rest[j] in multiset(rest);
      if rest[j] != x {
        assert rest[j] in multiset(t);
      }
    }
    var r := [h] + rest;
    forall i, j | 0 <= i < j < |r| ensures le(r[i], r[j]) {
      if i > 0 {
        assert r[i] == rest[i - 1] && r[j] == rest[j - 1];
      } else {
        assert r[j] == rest[j - 1];
      }
    }
  }

  /** A stable sort of `s` by `le`. */
  function SortBy<T(!new)>(s: seq<T>, le: (T, T) -> bool): (r: seq<T>)
    requires TotalPreorder(le)
    ensures SortedBy(r, le)
    ensures multiset(r) == multiset(s)
    ensures |r| == |s|
    decreases |s|
  {
    if |s| == 0 then []
    else
      assert s == [s[0]] + s[1..];
      InsertSorted(s[0], SortBy(s[1..], le), le)
  }

  lemma SortByMembers<T(!new)>(s: seq<T>, le: (T, T) -> bool)
    requires TotalPreorder(le)
    ensures forall x :: x in SortBy(s, le) <==> x in s
  {
    var r := SortBy(s, le);
    assert forall x :: x in r <==> x in multiset(r);
    assert forall x :: x in s <==> x in multiset(s);
  }

  /** Ordinal lexicographic order on strings: `a` sorts no later than `b`. */
  predicate StrLe(a: string, b: string)
    decreases |a|
  {
    if |a| == 0 then true
    else if |b| == 0 then false
    else if a[0] != b[0] then a[0] < b[0]
    else StrLe(a[1..], b[1..])
  }

  lemma {:induction false} StrLeTotal(a: string, b: string)
    ensures StrLe(a, b) || StrLe(b, a)
    decreases |a|
  {
    if |a| > 0 && |b| > 0 && a[0] == b[0] {
      StrLeTotal(a[1..], b[1..]);
    }
  }

  lemma {:induction false} StrLeTransitive(a: string, b: string, c: string)
    requires StrLe(a, b) && StrLe(b, c)
    ensures StrLe(a, c)
    decreases |a|
  {
    if |a| > 0 && |b| > 0 && |c| > 0 && a[0] == b[0] && b[0] == c[0] {
      StrLeTransitive(a[1..], b[1..], c[1..]);
    }
  }

  lemma {:induction false} StrLeAntisymmetric(a: string, b: string)
    requires StrLe(a, b) && StrLe(b, a)
    ensures a == b
    decreases |a|
  {
    if |a| > 0 {
      StrLeAntisymmetric(a[1..], b[1..]);
      assert a == [a[0]] + a[1..];
      assert b == [b[0]] + b[1..];
    }
  }
}

=== FILE: paging.dfy ===
/** The paging helper shared by the list endpoints: clamp the requested page,
    count the whole query, and return the requested slice. */
module RepositoryExtensions {
  import opened Wrappers
  import opened Ordering

  const MaxPageSize: int := 200

  /** A C# `int`. */
  type Int32 = x: int | -0x8000_0000 <= x < 0x8000_0000

  datatype PagedResult<T> = PagedResult(pageNumber: int, pageSize: int, totalCount: int, items: seq<T>)

  function Dist(a: int, b: int): nat
  {
    if a <= b then b - a else a - b
  }

  /** The valid page number nearest to the requested one. */
  function ClampPageNumber(p: int): (r: int)
    ensures r >= 1
    ensures forall k :: k >= 1 ==> Dist(r, p) <= Dist(k, p)
  {
    if p < 1 then 1 else p
  }

  /** The valid page size (1 to MaxPageSize) nearest to the requested one. */
  function ClampPageSize(s: int): (r: int)
    ensures 1 <= r <= MaxPageSize
    ensures forall k :: 1 <= k <= MaxPageSize ==> Dist(r, s) <= Dist(k, s)
  {
    if s < 1 then 1 else if s > MaxPageSize then MaxPageSize else s
  }

  /** Clamping an already clamped value changes nothing. */
  lemma ClampIdempotent(p: int, s: int)
    ensures ClampPageNumber(ClampPageNumber(p)) == ClampPageNumber(p)
    ensures ClampPageSize(ClampPageSize(s)) == ClampPageSize(s)
  {
  }

  /** Up to `size` elements of `q` starting at position `skip`. */
  function Slice<T>(q: seq<T>, skip: nat, size: nat): (r: seq<T>)
    ensures |r| == (if skip >= |q| then 0 else if |q| - skip < size then |q| - skip else size)
    ensures forall i :: 0 <= i < |r| ==> r[i] == q[skip + i]
  {
    if skip >= |q| then []
    else if skip + size <= |q| then q[skip..skip + size]
    else q[skip..]
  }

  /** Number of elements before page `p` when pages hold `s` elements. */
  function Offset(p: int, s: int): (r: nat)
    requires p >= 1 && s >= 0
    ensures r == (p - 1) * s
  {
    MulNonNegative(p - 1, s);
    (p - 1) * s
  }

  lemma {:induction false} MulNonNegative(a: nat, b: nat)
    ensures a * b >= 0
  {
    if a > 0 {
      MulNonNegative(a - 1, b);
      assert a * b == (a - 1) * b + b;
    }
  }

  /** `ToPagedResultAsync`, with the offset computed without overflow. */
  function ToPagedResult<T>(query: seq<T>, pageNumber: Int32, pageSize: Int32): (r: PagedResult<T>)
    ensures r.pageNumber == ClampPageNumber(pageNumber) && r.pageSize == ClampPageSize(pageSize)
    ensures r.totalCount == |query|
    ensures |r.items| <= r.pageSize
    ensures var skip := Offset(r.pageNumber, r.pageSize);
      && |r.items| == (if skip >= |query| then 0 else if |query| - skip < r.pageSize then |query| - skip else r.pageSize)
      && forall i :: 0 <= i < |r.items| ==> r.items[i] == query[skip + i]
  {
    var p := ClampPageNumber(pageNumber);
    var s := ClampPageSize(pageSize);
    PagedResult(p, s, |query|, Slice(query, Offset(p, s), s))
  }

  function Min(a: int, b: int): int { if a <= b then a else b }

  /** A page is the query between its offset and one page size further,
      both cut off at the end of the query. */
  lemma PageIsSlice<T>(query: seq<T>, pageNumber: Int32, pageSize: Int32)
    ensures var m := Offset(ClampPageNumber(pageNumber), ClampPageSize(pageSize));
      ToPagedResult(query, pageNumber, pageSize).items
        == query[Min(m, |query|)..Min(m + ClampPageSize(pageSize), |query|)]
  {
  }

  /** A page of an ordered query keeps the query's order and holds only
      elements of the query. */
  lemma PageKeepsOrder<T>(query: seq<T>, pageNumber: Int32, pageSize: Int32, le: (T, T) -> bool)
    requires SortedBy(query, le)
    ensures SortedBy(ToPagedResult(query, pageNumber, pageSize).items, le)
    ensures forall x :: x in ToPagedResult(query, pageNumber, pageSize).items ==> x in query
  {
    PageIsSlice(query, pageNumber, pageSize);
    var m := Offset(ClampPageNumber(pageNumber), ClampPageSize(pageSize));
    var a := Min(m, |query|);
    var items := query[a..Min(m + ClampPageSize(pageSize), |query|)];
    forall i, j | 0 <= i < j < |items| ensures le(items[i], items[j]) {
      assert items[i] == query[a + i] && items[j] == query[a + j];
    }
  }

  /** Pages 1..k of size `s`, concatenated. */
  function Pages<T>(query: seq<T>, s: Int32, k: nat): seq<T>
    requires 1 <= s <= MaxPageSize
    requires k < 0x8000_0000
  {
    if k == 0 then [] else Pages(query, s, k - 1) + ToPagedResult(query, k, s).items
  }

  lemma MulStep(k: int, s: int)
    ensures k * s == (k - 1) * s + s
  {
  }

  /** Reading pages 1..k in turn yields the first k*s elements of the query
      (or all of them, when there are fewer). */
  lemma {:induction false} PagesArePrefix<T>(query: seq<T>, s: Int32, k: nat)
    requires 1 <= s <= MaxPageSize
    requires k < 0x8000_0000
    ensures Pages(query, s, k) == query[..Min(k * s, |query|)]
  {
    if k > 0 {
      PagesArePrefix(query, s, k - 1);
      var m := (k - 1) * s;
      MulStep(k, s);
      MulNonNegative(k - 1, s);
      PageIsSlice(query, k, s);
      PrefixThenSlice(query, Min(m, |query|), Min(m + s, |query|));
    }
  }

  lemma PrefixThenSlice<T>(q: seq<T>, a: nat, b: nat)
    requires a <= b <= |q|
    ensures q[..a] + q[a..b] == q[..b]
  {
  }

  // The source computes the offset `(pageNumber - 1) * pageSize` in C#'s
  // unchecked 32-bit arithmetic. The members below model that computation.

  /** Two's-complement wrap-around of a mathematical integer to 32 bits. */
  function WrapInt32(x: int): Int32
  {
    (x + 0x8000_0000) % 0x1_0000_0000 - 0x8000_0000
  }

  /** The offset as the source computes it, after clamping. */
  function SkippedAsWritten(pageNumber: Int32, pageSize: Int32): Int32
  {
    WrapInt32((ClampPageNumber(pageNumber) - 1) * ClampPageSize(pageSize))
  }

  /** The page as the source computes it; None where the wrapped offset is
      negative, whose outcome the database decides. */
  function ToPagedResultAsWritten<T>(query: seq<T>, pageNumber: Int32, pageSize: Int32): (r: Option<PagedResult<T>>)
    ensures r.Some? <==> SkippedAsWritten(pageNumber, pageSize) >= 0
    ensures r.Some? ==> r.value.totalCount == |query| && |r.value.items| <= r.value.pageSize
    ensures r.Some? ==> r.value.pageNumber == ClampPageNumber(pageNumber) && r.value.pageSize == ClampPageSize(pageSize)
    ensures r.Some? ==> var skip := SkippedAsWritten(pageNumber, pageSize);
      && |r.value.items| == (if skip >= |query| then 0 else if |query| - skip < r.value.pageSize then |query| - skip else r.value.pageSize)
      && forall i :: 0 <= i < |r.value.items| ==> r.value.items[i] == query[skip + i]
  {
    var p := ClampPageNumber(pageNumber);
    var s := ClampPageSize(pageSize);
    var skip := SkippedAsWritten(pageNumber, pageSize);
    if skip < 0 then None else Some(PagedResult(p, s, |query|, Slice(query, skip, s)))
  }

  /** Page 536870913 of size 200 starts 107374182400 elements in, which wraps
      to offset 0: the source returns the first page's elements under that page
      number, where the query has far fewer elements and the page is empty. */
  lemma {:induction false} WrappedOffsetReturnsFirstPage<T>(query: seq<T>)
    requires 0 < |query| < 0x8000_0000
    ensures SkippedAsWritten(536870913, 200) == 0
    ensures ToPagedResultAsWritten(query, 536870913, 200).Some?
    ensures ToPagedResultAsWritten(query, 536870913, 200).value.items == ToPagedResult(query, 1, 200).items
    ensures ToPagedResultAsWritten(query, 536870913, 200).value.items != []
    ensures ToPagedResult(query, 536870913, 200).items == []
  {
    assert (536870913 - 1) * 200 == 25 * 0x1_0000_0000;
    assert WrapInt32(25 * 0x1_0000_0000) == 0;
  }

  /** The corrected offset never wraps: a page past the end is empty. */
  lemma PageBeyondEndIsEmpty<T>(query: seq<T>, pageNumber: Int32, pageSize: Int32)
    requires (ClampPageNumber(pageNumber) - 1) * ClampPageSize(pageSize) >= |query|
    ensures ToPagedResult(query, pageNumber, pageSize).items == []
  {
  }
}

=== FILE: quarter_dates.dfy ===
/** The calendar range of a reporting quarter. */
module QuarterDateHelper {
  import opened Wrappers
  import opened Domain

  const Q1: int := 1
  const Q2: int := 2
  const Q3: int := 3
  const Q4: int := 4

  /** An out-of-range quarter is an argument error; a year DateTime cannot
      represent is an argument-out-of-range error. */
  datatype DateError = InvalidQuarter(quarter: int) | YearOutOfRange(year: int)

  predicate IsLeapYear(y: int)
  {
    y % 4 == 0 && (y % 100 != 0 || y % 400 == 0)
  }

  function DaysInMonth(y: int, m: int): int
    requires 1 <= m <= 12
  {
    if m == 2 then (if IsLeapYear(y) then 29 else 28)
    else if m == 4 || m == 6 || m == 9 || m == 11 then 30
    else 31
  }

  /** A date DateTime can represent. */
  predicate ValidDate(d: Date)
  {
    1 <= d.year <= 9999 && 1 <= d.month <= 12 && 1 <= d.day <= DaysInMonth(d.year, d.month)
  }

  /** Chronological order on dates. */
  predicate DateLe(a: Date, b: Date)
  {
    a.year < b.year
    || (a.year == b.year && a.month < b.month)
    || (a.year == b.year && a.month == b.month && a.day <= b.day)
  }

  /** The calendar day after `d`. */
  function NextDay(d: Date): Date
    requires ValidDate(d)
  {
    if d.day < DaysInMonth(d.year, d.month) then Date(d.year, d.month, d.day + 1)
    else if d.month < 12 then Date(d.year, d.month + 1, 1)
    else Date(d.year + 1, 1, 1)
  }

  function GetQuarterDateRange(year: int, quarter: int): (r: Result<(Date, Date), DateError>)
    ensures !(Q1 <= quarter <= Q4) ==> r == Failure(InvalidQuarter(quarter))
    ensures Q1 <= quarter <= Q4 && !(1 <= year <= 9999) ==> r == Failure(YearOutOfRange(year))
    ensures r.Success? <==> Q1 <= quarter <= Q4 && 1 <= year <= 9999
    ensures r.Success? ==>
      var (start, end) := r.value;
      && start == Date(year, 3 * (quarter - 1) + 1, 1)
      && end.year == year && end.month == 3 * quarter
      && ValidDate(start) && ValidDate(end)
      && end.day == DaysInMonth(year, end.month)
      && DateLe(start, end) && start != end
  {
    if quarter == Q1 then
      if 1 <= year <= 9999 then Success((Date(year, 1, 1), Date(year, 3, 31))) else Failure(YearOutOfRange(year))
    else if quarter == Q2 then
      if 1 <= year <= 9999 then Success((Date(year, 4, 1), Date(year, 6, 30))) else Failure(YearOutOfRange(year))
    else if quarter == Q3 then
      if 1 <= year <= 9999 then Success((Date(year, 7, 1), Date(year, 9, 30))) else Failure(YearOutOfRange(year))
    else if quarter == Q4 then
      if 1 <= year <= 9999 then Success((Date(year, 10, 1), Date(year, 12, 31))) else Failure(YearOutOfRange(year))
    else Failure(InvalidQuarter(quarter))
  }

  /** Consecutive quarters meet: each quarter ends the day before the next
      one starts, and Q4 ends the day before the next year's Q1. */
  lemma QuartersContiguous(year: int, quarter: int)
    requires 1 <= year <= 9998 && Q1 <= quarter <= Q4
    ensures var (_, end) := GetQuarterDateRange(year, quarter).value;
      NextDay(end) == (if quarter < Q4 then GetQuarterDateRange(year, quarter + 1).value.0
                       else GetQuarterDateRange(year + 1, Q1).value.0)
  {
  }

  /** The quarter a date of the year falls in. */
  function QuarterOf(d: Date): int
  {
    (d.month - 1) / 3 + 1
  }

  /** The four ranges partition the year: every valid date lies in the range
      of exactly one quarter, the one its month determines. */
  lemma QuartersPartitionYear(d: Date, quarter: int)
    requires ValidDate(d) && Q1 <= quarter <= Q4
    ensures var (start, end) := GetQuarterDateRange(d.year, quarter).value;
      DateLe(start, d) && DateLe(d, end) <==> quarter == QuarterOf(d)
  {
  }
}

=== FILE: seqs.dfy ===
/** Sequence helpers standing in for the LINQ operators the source uses:
    `Where` (Filter), `Count(pred)` (Count), `Select(..).Distinct()` over ids
    (Image) and `Take` (Take). */
module Seqs {
  import opened Wrappers

  /** The elements of `s` satisfying `p`, in their original order. */
  function Filter<T(!new)>(s: seq<T>, p: T -> bool): (r: seq<T>)
    ensures |r| <= |s|
    ensures forall x :: x in r <==> x in s && p(x)
    ensures forall i :: 0 <= i < |r| ==> p(r[i])
    decreases |s|
  {
    if |s| == 0 then []
    else if p(s[0]) then [s[0]] + Filter(s[1..], p)
    else Filter(s[1..], p)
  }

  /** Number of elements of `s` satisfying `p`. */
  function Count<T(!new)>(s: seq<T>, p: T -> bool): nat
  {
    |Filter(s, p)|
  }

  /** The first `n` elements of `s` (all of them when there are fewer). */
  function Take<T>(s: seq<T>, n: nat): (r: seq<T>)
    ensures |r| == (if |s| <= n then |s| else n)
    ensures |s| <= n ==> r == s
    ensures forall i :: 0 <= i < |r| ==> r[i] == s[i]
    ensures multiset(r) <= multiset(s)
  {
    if |s| <= n then s
    else
      assert s == s[..n] + s[n..];
      s[..n]
  }

  /** The set of keys `f` gives to the elements of `s`. */
  function Image<T(==), K>(s: seq<T>, f: T -> K): set<K>
  {
    set x | x in s :: f(x)
  }

  /** No two positions of `s` carry the same key. */
  predicate UniqueBy<T, K(==)>(s: seq<T>, f: T -> K)
  {
    forall i, j :: 0 <= i < j < |s| ==> f(s[i]) != f(s[j])
  }

  lemma {:induction false} FilterOfAppend<T(!new)>(s: seq<T>, x: T, p: T -> bool)
    ensures Filter(s + [x], p) == Filter(s, p) + (if p(x) then [x] else [])
    decreases |s|
  {
    if |s| == 0 {
      assert s + [x] == [x];
      assert [x][1..] == [];
    } else {
      assert (s + [x])[0] == s[0];
      assert (s + [x])[1..] == s[1..] + [x];
      FilterOfAppend(s[1..], x, p);
    }
  }

  /** Predicates that agree on the elements of `s` select the same elements. */
  lemma {:induction false} FilterCongruent<T(!new)>(s: seq<T>, p: T -> bool, q: T -> bool)
    requires forall x :: x in s ==> p(x) == q(x)
    ensures Filter(s, p) == Filter(s, q)
    decreases |s|
  {
    if |s| > 0 {
      assert forall x :: x in s[1..] ==> x in s;
      FilterCongruent(s[1..], p, q);
    }
  }

  /** Every element satisfies exactly one of `p` and `q`: the two counts add up to |s|. */
  lemma {:induction false} CountPartition<T(!new)>(s: seq<T>, p: T -> bool, q: T -> bool)
    requires forall x :: q(x) == !p(x)
    ensures Count(s, p) + Count(s, q) == |s|
    decreases |s|
  {
    if |s| > 0 {
      CountPartition(s[1..], p, q);
    }
  }

  /** Filtering by `p` and then by `q` is filtering once by their conjunction `u`. */
  lemma {:induction false} FilterTwice<T(!new)>(s: seq<T>, p: T -> bool, q: T -> bool, u: T -> bool)
    requires forall x :: u(x) == (p(x) && q(x))
    ensures Filter(Filter(s, p), q) == Filter(s, u)
    decreases |s|
  {
    if |s| > 0 {
      FilterTwice(s[1..], p, q, u);
      if p(s[0]) {
        var fp := Filter(s, p);
        assert fp == [s[0]] + Filter(s[1..], p);
        assert fp[1..] == Filter(s[1..], p);
      }
    }
  }

  /** Counting two disjoint predicates is counting their disjunction `u`. */
  lemma {:induction false} CountDisjointUnion<T(!new)>(s: seq<T>, p: T -> bool, q: T -> bool, u: T -> bool)
    requires forall x :: !(p(x) && q(x))
    requires forall x :: u(x) == (p(x) || q(x))
    ensures Count(s, p) + Count(s, q) == Count(s, u)
    decreases |s|
  {
    if |s| > 0 {
      CountDisjointUnion(s[1..], p, q, u);
    }
  }

  /** A weaker predicate counts at least as many elements. */
  lemma {:induction false} CountMonotone<T(!new)>(s: seq<T>, p: T -> bool, q: T -> bool)
    requires forall x :: p(x) ==> q(x)
    ensures Count(s, p) <= Count(s, q)
    decreases |s|
  {
    if |s| > 0 {
      CountMonotone(s[1..], p, q);
    }
  }

  lemma ImageOfCons<T(!new), K>(s: seq<T>, f: T -> K)
    requires |s| > 0
    ensures Image(s, f) == Image(s[1..], f) + {f(s[0])}
  {
    assert forall x :: x in s <==> x == s[0] || x in s[1..];
  }

  /** There are never more distinct keys than elements. */
  lemma {:induction false} ImageCard<T(!new), K>(s: seq<T>, f: T -> K)
    ensures |Image(s, f)| <= |s|
    decreases |s|
  {
    if |s| > 0 {
      ImageOfCons(s, f);
      ImageCard(s[1..], f);
    }
  }

  /** With unique keys, there are exactly as many keys as elements. */
  lemma {:induction false} ImageCardUnique<T(!new), K>(s: seq<T>, f: T -> K)
    requires UniqueBy(s, f)
    ensures |Image(s, f)| == |s|
    decreases |s|
  {
    if |s| > 0 {
      ImageOfCons(s, f);
      assert UniqueBy(s[1..], f);
      assert f(s[0]) !in Image(s[1..], f) by {
        forall x | x in s[1..] ensures f(x) != f(s[0]) {
          var k :| 0 <= k < |s[1..]| && s[1..][k] == x;
          assert s[k + 1] == x;
        }
      }
      ImageCardUnique(s[1..], f);
    }
  }

  /** Elements of a key-unique sequence whose key lies outside `d`, with `d` a
      set of keys drawn from the sequence: there are |s| - |d| of them. */
  lemma {:induction false} CountKeyOutside<T(!new), K>(s: seq<T>, f: T -> K, d: set<K>, p: T -> bool)
    requires UniqueBy(s, f)
    requires d <= Image(s, f)
    requires forall x :: p(x) == (f(x) !in d)
    ensures Count(s, p) + |d| == |s|
    decreases |s|
  {
    if |s| > 0 {
      var k := f(s[0]);
      HeadKeyFresh(s, f);
      ImageOfCons(s, f);
      var d' := d - {k};
      var p' := (x: T) => f(x) !in d';
      CountKeyOutside(s[1..], f, d', p');
      assert forall x :: x in s[1..] ==> p(x) == p'(x) by {
        forall x | x in s[1..] ensures p(x) == p'(x) {
          assert f(x) in Image(s[1..], f);
        }
      }
      FilterCongruent(s[1..], p, p');
      assert Count(s, p) == Count(s[1..], p) + (if p(s[0]) then 1 else 0);
      assert |d| == |d'| + (if k in d then 1 else 0);
    }
  }

  /** In a key-unique sequence the head's key does not recur in the tail,
      and the tail is key-unique. */
  lemma HeadKeyFresh<T(!new), K>(s: seq<T>, f: T -> K)
    requires UniqueBy(s, f) && |s| > 0
    ensures UniqueBy(s[1..], f)
    ensures f(s[0]) !in Image(s[1..], f)
  {
    forall x | x in s[1..] ensures f(x) != f(s[0]) {
      var i :| 0 <= i < |s[1..]| && s[1..][i] == x;
      assert s[i + 1] == x;
    }
  }

  /** The first element of `s` satisfying `p` (LINQ `FirstOrDefault(pred)`). */
  function FindFirst<T(!new)>(s: seq<T>, p: T -> bool): (r: Option<T>)
    ensures r.Some? ==> r.value in s && p(r.value)
    ensures r.None? ==> forall x :: x in s ==> !p(x)
    decreases |s|
  {
    if |s| == 0 then None
    else if p(s[0]) then Some(s[0])
    else FindFirst(s[1..], p)
  }

  /** Rewrites with `f` every element that satisfies `p`, in place. */
  function UpdateWhere<T>(s: seq<T>, p: T -> bool, f: T -> T): (r: seq<T>)
    ensures |r| == |s|
    ensures forall i :: 0 <= i < |s| ==> r[i] == (if p(s[i]) then f(s[i]) else s[i])
  {
    seq(|s|, i requires 0 <= i < |s| => if p(s[i]) then f(s[i]) else s[i])
  }

  /** With unique keys, an element is the only one carrying its key. */
  lemma UniqueKeyMember<T, K>(s: seq<T>, f: T -> K, x: T, y: T)
    requires UniqueBy(s, f)
    requires x in s && y in s && f(x) == f(y)
    ensures x == y
  {
    var i :| 0 <= i < |s| && s[i] == x;
    var j :| 0 <= j < |s| && s[j] == y;
    UniqueIndex(s, f, i, j);
  }

  /** With unique keys, two positions carrying the same key are one position. */
  lemma UniqueIndex<T, K>(s: seq<T>, f: T -> K, i: nat, j: nat)
    requires UniqueBy(s, f)
    requires i < |s| && j < |s| && f(s[i]) == f(s[j])
    ensures i == j
  {
  }

  /** Sequences carrying the same keys position by position have the same
      key set. */
  lemma ImageSameKeys<T, K>(s: seq<T>, t: seq<T>, f: T -> K)
    requires |s| == |t|
    requires forall i :: 0 <= i < |s| ==> f(s[i]) == f(t[i])
    ensures Image(s, f) == Image(t, f)
  {
    forall k | k in Image(s, f) ensures k in Image(t, f) {
      var x :| x in s && f(x) == k;
      var i :| 0 <= i < |s| && s[i] == x;
      assert t[i] in t;
    }
    forall k | k in Image(t, f) ensures k in Image(s, f) {
      var x :| x in t && f(x) == k;
      var i :| 0 <= i < |t| && t[i] == x;
      assert s[i] in s;
    }
  }

  /** A filter of a key-unique sequence is key-unique. */
  lemma {:induction false} FilterKeepsUnique<T(!new), K>(s: seq<T>, f: T -> K, p: T -> bool)
    requires UniqueBy(s, f)
    ensures UniqueBy(Filter(s, p), f)
    decreases |s|
  {
    if |s| > 0 {
      assert UniqueBy(s[1..], f);
      FilterKeepsUnique(s[1..], f, p);
      var t := Filter(s[1..], p);
      if p(s[0]) {
        var r := [s[0]] + t;
        forall i, j | 0 <= i < j < |r| ensures f(r[i]) != f(r[j]) {
          if i == 0 {
            assert r[j] in s[1..];
            var k :| 0 <= k < |s[1..]| && s[1..][k] == r[j];
            assert s[k + 1] == r[j];
          } else {
            assert r[i] == t[i - 1] && r[j] == t[j - 1];
          }
        }
      }
    }
  }

  /** Appending an element with a fresh key keeps keys unique. */
  lemma UniqueByAppend<T, K>(s: seq<T>, f: T -> K, x: T)
    requires UniqueBy(s, f)
    requires forall y :: y in s ==> f(y) != f(x)
    ensures UniqueBy(s + [x], f)
  {
    var t := s + [x];
    forall i, j | 0 <= i < j < |t| ensures f(t[i]) != f(t[j]) {
      if j == |s| { assert t[i] in s; }
      else { assert t[i] == s[i] && t[j] == s[j]; }
    }
  }

  /** A key-preserving in-place update keeps keys unique. */
  lemma UniqueByUpdate<T, K>(s: seq<T>, key: T -> K, p: T -> bool, f: T -> T)
    requires UniqueBy(s, key)
    requires forall x :: key(f(x)) == key(x)
    ensures UniqueBy(UpdateWhere(s, p, f), key)
  {
    var r := UpdateWhere(s, p, f);
    forall i, j | 0 <= i < j < |r| ensures key(r[i]) != key(r[j]) {
      assert key(r[i]) == key(s[i]) && key(r[j]) == key(s[j]);
    }
  }
}

=== FILE: status_helper.dfy ===
/** Which lifecycle states are final: those in which a Director has decided. */
module NominationStatusHelper {
  import opened Domain

  /** The final states, as the source's array lists them. */
  const FinalStates: seq<NominationStatus> := [DirectorApproved, DirectorRejected]

  function IsFinalState(s: NominationStatus): (r: bool)
    ensures r <==> s in FinalStates
  {
    s == DirectorApproved || s == DirectorRejected
  }

  /** The array holds exactly the two Director decisions, once each. */
  lemma FinalStatesExact()
    ensures |FinalStates| == 2
    ensures forall s :: s in FinalStates <==> s.DirectorApproved? || s.DirectorRejected?
  {
  }

  /** The other five states are all non-final. */
  lemma NonFinalStates()
    ensures !IsFinalState(Draft) && !IsFinalState(PendingManager) && !IsFinalState(PendingDirector)
    ensures !IsFinalState(ManagerApproved) && !IsFinalState(ManagerRejected)
  {
  }
}

=== FILE: team_controller.dfy ===
/** The team endpoints: creating and editing a team checks that its lead,
    manager and director are known users, in that order; the paged list is
    ordered by name and then id, both descending. */
module TeamController {
  import opened Wrappers
  import opened Seqs
  import opened Ordering
  import opened Domain
  import RepositoryExtensions

  /** A reference resolves when it is set and names a user row, deleted or
      not; a null reference never does. */
  predicate Resolves(st: Store, ref: Option<UserId>)
  {
    ref.Some? && FindUser(st.users, ref.value).Some?
  }

  /** The first failing reference check, lead first, then manager, then
      director. */
  function CheckReferences(st: Store, t: Team): (r: Option<Error>)
    ensures r.None? <==> Resolves(st, t.teamLeadId) && Resolves(st, t.managerId) && Resolves(st, t.directorId)
    ensures !Resolves(st, t.teamLeadId) ==> r == Some(InvalidTeamLeadId)
    ensures Resolves(st, t.teamLeadId) && !Resolves(st, t.managerId) ==> r == Some(InvalidManagerId)
    ensures Resolves(st, t.teamLeadId) && Resolves(st, t.managerId) && !Resolves(st, t.directorId) ==>
      r == Some(InvalidDirectorId)
  {
    if !Resolves(st, t.teamLeadId) then Some(InvalidTeamLeadId)
    else if !Resolves(st, t.managerId) then Some(InvalidManagerId)
    else if !Resolves(st, t.directorId) then Some(InvalidDirectorId)
    else None
  }

  /** POST api/team. `modelValid` is the outcome of model validation. */
  function Create(st: Store, t: Team, modelValid: bool): (r: Outcome<Store, Team>)
    ensures r.result.Failure? ==> r.state == st
    ensures !modelValid ==> r.result == Failure(InvalidModel)
    ensures modelValid && CheckReferences(st, t).Some? ==> r.result == Failure(CheckReferences(st, t).value)
    ensures r.result.Success? <==>
      modelValid && CheckReferences(st, t).None? && t.id !in Image(st.teams, TeamKey)
    ensures r.result.Success? ==> r.state == st.(teams := st.teams + [t]) && r.result.value == t
    ensures WellFormed(st) ==> WellFormed(r.state)
  {
    if !modelValid then Outcome(st, Failure(InvalidModel))
    else match CheckReferences(st, t)
      case Some(e) => Outcome(st, Failure(e))
      case None =>
        if t.id in Image(st.teams, TeamKey) then Outcome(st, Failure(DuplicateKey))
        else
          UniqueByAppendTeam(st.teams, t);
          Outcome(st.(teams := st.teams + [t]), Success(t))
  }

  lemma UniqueByAppendTeam(ts: seq<Team>, t: Team)
    requires t.id !in Image(ts, TeamKey)
    ensures UniqueBy(ts, TeamKey) ==> UniqueBy(ts + [t], TeamKey)
  {
    if UniqueBy(ts, TeamKey) {
      UniqueByAppend(ts, TeamKey, t);
    }
  }

  /** Replaces every row carrying `t.id` with `t`. */
  function ReplaceTeam(ts: seq<Team>, t: Team): (r: seq<Team>)
    ensures |r| == |ts|
    ensures forall i :: 0 <= i < |ts| ==> r[i] == (if ts[i].id == t.id then t else ts[i])
    ensures UniqueBy(ts, TeamKey) ==> UniqueBy(r, TeamKey)
  {
    var r := UpdateWhere(ts, (x: Team) => x.id == t.id, (x: Team) => t);
    assert forall i :: 0 <= i < |ts| ==> r[i].id == ts[i].id;
    r
  }

  /** PUT api/team/{id}: only Name and the three references are copied; the
      id and the deletion flag of the stored row stay. */
  function Update(st: Store, id: Guid, t: Team, modelValid: bool): (r: Outcome<Store, Team>)
    ensures r.result.Failure? ==> r.state == st
    ensures modelValid && id != t.id ==> r.result == Failure(IdMismatch)
    ensures modelValid && id == t.id && FindTeam(st.teams, id).None? ==> r.result == Failure(NotFound)
    ensures (modelValid && id == t.id && FindTeam(st.teams, id).Some? && CheckReferences(st, t).Some?) ==>
      r.result == Failure(CheckReferences(st, t).value)
    ensures r.result.Success? <==>
      modelValid && id == t.id && FindTeam(st.teams, id).Some? && CheckReferences(st, t).None?
    ensures r.result.Success? ==>
      var old_ := FindTeam(st.teams, id).value;
      var m := r.result.value;
      && m == old_.(name := t.name, teamLeadId := t.teamLeadId, managerId := t.managerId, directorId := t.directorId)
      && m.id == id && m.isDeleted == old_.isDeleted
      && r.state == st.(teams := ReplaceTeam(st.teams, m))
    ensures WellFormed(st) ==> WellFormed(r.state)
  {
    if !modelValid then Outcome(st, Failure(InvalidModel))
    else if id != t.id then Outcome(st, Failure(IdMismatch))
    else match FindTeam(st.teams, id)
      case None => Outcome(st, Failure(NotFound))
      case Some(existing) =>
        match CheckReferences(st, t)
        case Some(e) => Outcome(st, Failure(e))
        case None =>
          var m := existing.(name := t.name, teamLeadId := t.teamLeadId, managerId := t.managerId, directorId := t.directorId);
          Outcome(st.(teams := ReplaceTeam(st.teams, m)), Success(m))
  }

  /** DELETE api/team/{id}: a missing team is not found; otherwise the row
      is marked deleted. */
  function SoftDelete(st: Store, id: Guid): (r: Outcome<Store, ()>)
    ensures r.result.Success? <==> FindTeam(st.teams, id).Some?
    ensures r.result.Failure? ==> r.state == st && r.result.error == NotFound
    ensures r.result.Success? ==> r.state == st.(teams := r.state.teams)
    ensures r.result.Success? ==> |r.state.teams| == |st.teams|
    ensures r.result.Success? ==> forall i :: 0 <= i < |st.teams| ==>
      r.state.teams[i] == (if st.teams[i].id == id then st.teams[i].(isDeleted := true) else st.teams[i])
  {
    if FindTeam(st.teams, id).None? then Outcome(st, Failure(NotFound))
    else Outcome(st.(teams := UpdateWhere(st.teams, (x: Team) => x.id == id, (x: Team) => x.(isDeleted := true))), Success(()))
  }

  /** DELETE api/team/{id}/hard: a missing team is not found; otherwise the
      row is removed. */
  function Delete(st: Store, id: Guid): (r: Outcome<Store, ()>)
    ensures r.result.Success? <==> FindTeam(st.teams, id).Some?
    ensures r.result.Failure? ==> r.state == st && r.result.error == NotFound
    ensures r.result.Success? ==> r.state == st.(teams := r.state.teams)
    ensures r.result.Success? ==> forall x :: x in r.state.teams <==> x in st.teams && x.id != id
  {
    if FindTeam(st.teams, id).None? then Outcome(st, Failure(NotFound))
    else Outcome(st.(teams := Filter(st.teams, (x: Team) => x.id != id)), Success(()))
  }

  /** Name descending, then id descending. */
  predicate NameThenIdDescending(a: Team, b: Team)
  {
    if a.name == b.name then a.id >= b.id else StrLe(b.name, a.name)
  }

  lemma NameThenIdDescendingIsPreorder()
    ensures TotalPreorder((a: Team, b: Team) => NameThenIdDescending(a, b))
  {
    forall a: Team, b: Team ensures NameThenIdDescending(a, b) || NameThenIdDescending(b, a) {
      StrLeTotal(a.name, b.name);
    }
    forall a: Team, b: Team, c: Team | NameThenIdDescending(a, b) && NameThenIdDescending(b, c)
      ensures NameThenIdDescending(a, c)
    {
      if a.name != b.name && b.name != c.name {
        StrLeTransitive(c.name, b.name, a.name);
        if a.name == c.name {
          StrLeAntisymmetric(a.name, b.name);
        }
      }
    }
  }

  /** GET api/team/paged. */
  function GetPaged(st: Store, pageNumber: RepositoryExtensions.Int32, pageSize: RepositoryExtensions.Int32,
                    includeDeleted: bool): (r: RepositoryExtensions.PagedResult<Team>)
    ensures r.pageNumber == RepositoryExtensions.ClampPageNumber(pageNumber)
    ensures r.pageSize == RepositoryExtensions.ClampPageSize(pageSize)
    ensures |r.items| <= r.pageSize
    ensures r.totalCount == Count(st.teams, (t: Team) => includeDeleted || !t.isDeleted)
    ensures forall t :: t in r.items ==> t in st.teams && (includeDeleted || !t.isDeleted)
    ensures forall i, j :: 0 <= i < j < |r.items| ==> NameThenIdDescending(r.items[i], r.items[j])
    ensures var q := OrderedTeams(st, includeDeleted);
      var m := RepositoryExtensions.Offset(RepositoryExtensions.ClampPageNumber(pageNumber), RepositoryExtensions.ClampPageSize(pageSize));
      r.items == q[RepositoryExtensions.Min(m, |q|)..RepositoryExtensions.Min(m + RepositoryExtensions.ClampPageSize(pageSize), |q|)]
  {
    var ordered := OrderedTeams(st, includeDeleted);
    var r := RepositoryExtensions.ToPagedResult(ordered, pageNumber, pageSize);
    RepositoryExtensions.PageIsSlice(ordered, pageNumber, pageSize);
    RepositoryExtensions.PageKeepsOrder(ordered, pageNumber, pageSize, (a: Team, b: Team) => NameThenIdDescending(a, b));
    r
  }

  /** The listed teams in page order. */
  function OrderedTeams(st: Store, includeDeleted: bool): (r: seq<Team>)
    ensures |r| == Count(st.teams, (t: Team) => includeDeleted || !t.isDeleted)
    ensures forall t :: t in r <==> t in st.teams && (includeDeleted || !t.isDeleted)
    ensures forall i, j :: 0 <= i < j < |r| ==> NameThenIdDescending(r[i], r[j])
  {
    var f := Filter(st.teams, (t: Team) => includeDeleted || !t.isDeleted);
    NameThenIdDescendingIsPreorder();
    SortByMembers(f, (a: Team, b: Team) => NameThenIdDescending(a, b));
    SortBy(f, (a: Team, b: Team) => NameThenIdDescending(a, b))
  }
}

=== FILE: user_repo.dfy ===
/** The user repository: soft delete and restore flip the IsDeleted and
    IsActive flags together, and the list queries filter on those flags, the
    team assignment and the TeamLead role. */
module UserRepo {
  import opened Wrappers
  import opened Seqs
  import opened Ordering
  import opened Domain

  /** Rewrites the flags of every row with the user's id; a missing id
      leaves the table as it is. */
  function SetFlags(us: seq<User>, id: UserId, deleted: bool, active: bool): (r: seq<User>)
    ensures |r| == |us|
    ensures forall i :: 0 <= i < |us| ==>
      r[i] == (if us[i].id == id then us[i].(isDeleted := deleted, isActive := active) else us[i])
    ensures id !in Image(us, UserKey) ==> r == us
    ensures UniqueBy(us, UserKey) ==> UniqueBy(r, UserKey)
  {
    var r := UpdateWhere(us, (u: User) => u.id == id, (u: User) => u.(isDeleted := deleted, isActive := active));
    if id !in Image(us, UserKey) then
      assert forall i :: 0 <= i < |us| ==> us[i] in us;
      r
    else
      SetFlagsKeepsKeys(us, id, deleted, active);
      r
  }

  lemma SetFlagsKeepsKeys(us: seq<User>, id: UserId, deleted: bool, active: bool)
    ensures UniqueBy(us, UserKey) ==>
      UniqueBy(UpdateWhere(us, (u: User) => u.id == id, (u: User) => u.(isDeleted := deleted, isActive := active)), UserKey)
  {
    if UniqueBy(us, UserKey) {
      UniqueByUpdate(us, UserKey, (u: User) => u.id == id, (u: User) => u.(isDeleted := deleted, isActive := active));
    }
  }

  /** `SoftDeleteAsync`: the user is marked deleted and inactive. */
  function SoftDelete(us: seq<User>, id: UserId): (r: seq<User>)
    ensures id !in Image(us, UserKey) ==> r == us
    ensures |r| == |us|
    ensures forall i :: 0 <= i < |us| && us[i].id == id ==> r[i].isDeleted && !r[i].isActive
    ensures forall i :: 0 <= i < |us| ==>
      r[i] == us[i] || (us[i].id == id && r[i] == us[i].(isDeleted := true, isActive := false))
  {
    SetFlags(us, id, true, false)
  }

  /** `RestoreAsync`: the user is marked not deleted and active, whatever
      the flags were before. */
  function Restore(us: seq<User>, id: UserId): (r: seq<User>)
    ensures id !in Image(us, UserKey) ==> r == us
    ensures |r| == |us|
    ensures forall i :: 0 <= i < |us| && us[i].id == id ==> !r[i].isDeleted && r[i].isActive
    ensures forall i :: 0 <= i < |us| ==>
      r[i] == us[i] || (us[i].id == id && r[i] == us[i].(isDeleted := false, isActive := true))
  {
    SetFlags(us, id, false, true)
  }

  /** A user restored after a soft delete is listed as active again, and no
      other row has moved. */
  lemma RestoreAfterSoftDelete(us: seq<User>, id: UserId)
    ensures var r := Restore(SoftDelete(us, id), id);
      && |r| == |us|
      && (forall i :: 0 <= i < |us| && us[i].id == id ==> r[i] == us[i].(isDeleted := false, isActive := true))
      && (forall i :: 0 <= i < |us| && us[i].id != id ==> r[i] == us[i])
  {
  }

  /** A second soft delete changes nothing. */
  lemma SoftDeleteIdempotent(us: seq<User>, id: UserId)
    ensures SoftDelete(SoftDelete(us, id), id) == SoftDelete(us, id)
  {
  }

  /** `DeleteAsync`: removes the user's row; a missing id is a no-op. */
  function Delete(us: seq<User>, id: UserId): (r: seq<User>)
    ensures forall u :: u in r <==> u in us && u.id != id
    ensures id !in Image(us, UserKey) ==> r == us
  {
    if id !in Image(us, UserKey) then us else Filter(us, (u: User) => u.id != id)
  }

  /** Users ordered by name, ordinal comparison. */
  function ByName(): (User, User) -> bool
  {
    (a: User, b: User) => StrLe(a.name, b.name)
  }

  lemma ByNameIsPreorder()
    ensures TotalPreorder(ByName())
  {
    forall a: User, b: User ensures ByName()(a, b) || ByName()(b, a) {
      StrLeTotal(a.name, b.name);
    }
    forall a: User, b: User, c: User | ByName()(a, b) && ByName()(b, c) ensures ByName()(a, c) {
      StrLeTransitive(a.name, b.name, c.name);
    }
  }

  /** `GetUnassignedUsersAsync`: non-deleted users without a team, by name. */
  function GetUnassigned(us: seq<User>): (r: seq<User>)
    ensures forall u :: u in r <==> u in us && !u.isDeleted && u.teamId.None?
    ensures |r| == Count(us, (u: User) => !u.isDeleted && u.teamId.None?)
    ensures forall i, j :: 0 <= i < j < |r| ==> StrLe(r[i].name, r[j].name)
  {
    var f := Filter(us, (u: User) => !u.isDeleted && u.teamId.None?);
    ByNameIsPreorder();
    SortByMembers(f, ByName());
    var r := SortBy(f, ByName());
    assert forall i, j :: 0 <= i < j < |r| ==> ByName()(r[i], r[j]);
    r
  }

  /** `GetActiveUsersAsync`. */
  function GetActive(us: seq<User>): (r: seq<User>)
    ensures forall u :: u in r <==> u in us && u.isActive && !u.isDeleted
  {
    Filter(us, (u: User) => u.isActive && !u.isDeleted)
  }

  /** `GetDeletedUsersAsync`. */
  function GetDeleted(us: seq<User>): (r: seq<User>)
    ensures forall u :: u in r <==> u in us && u.isDeleted
  {
    Filter(us, (u: User) => u.isDeleted)
  }

  /** `GetUsersByTeamAsync`: active, non-deleted members of the team. */
  function GetByTeam(us: seq<User>, teamId: Guid): (r: seq<User>)
    ensures forall u :: u in r <==> u in us && u.teamId == Some(teamId) && u.isActive && !u.isDeleted
  {
    Filter(us, (u: User) => u.teamId == Some(teamId) && u.isActive && !u.isDeleted)
  }

  /** Soft delete takes the user off the active list and onto the deleted
      list; restore does the reverse. */
  lemma SoftDeleteMovesBetweenLists(us: seq<User>, id: UserId)
    ensures forall u :: u in GetActive(SoftDelete(us, id)) ==> u.id != id
    ensures forall u :: u in GetDeleted(Restore(us, id)) ==> u.id != id
    ensures forall i :: 0 <= i < |us| && us[i].id == id ==>
      SoftDelete(us, id)[i] in GetDeleted(SoftDelete(us, id)) && Restore(us, id)[i] in GetActive(Restore(us, id))
  {
    var d := SoftDelete(us, id);
    var r := Restore(us, id);
    forall u | u in GetActive(d) ensures u.id != id {
      var k :| 0 <= k < |d| && d[k] == u;
    }
    forall u | u in GetDeleted(r) ensures u.id != id {
      var k :| 0 <= k < |r| && r[k] == u;
    }
    forall i | 0 <= i < |us| && us[i].id == id
      ensures d[i] in GetDeleted(d) && r[i] in GetActive(r)
    {
      assert d[i] in d && r[i] in r;
    }
  }

  /** Some team, deleted or not, names the user as its lead. */
  predicate LeadsSomeTeam(st: Store, u: UserId)
  {
    exists t :: t in st.teams && t.teamLeadId == Some(u)
  }

  /** `GetLeadsAsync`: non-deleted TeamLead role holders that lead no team
      (deleted teams count), plus the current lead when one is named. */
  function GetLeads(st: Store, currentLeadId: Option<UserId>): (r: seq<User>)
    ensures forall u :: u in r <==>
      && u in st.users
      && "TeamLead" in RolesOf(st, u.id)
      && !u.isDeleted
      && (currentLeadId == Some(u.id) || !LeadsSomeTeam(st, u.id))
  {
    Filter(st.users, (u: User) =>
      "TeamLead" in RolesOf(st, u.id) && !u.isDeleted && (currentLeadId == Some(u.id) || !LeadsSomeTeam(st, u.id)))
  }

  /** A lead whose only team was soft-deleted is still taken: that lead is
      offered only as the current lead of the team being edited. */
  lemma LeadOfDeletedTeamIsNotOffered(st: Store, t: Team, u: User)
    requires t in st.teams && t.isDeleted && t.teamLeadId == Some(u.id)
    ensures u !in GetLeads(st, None)
    ensures u in st.users && "TeamLead" in RolesOf(st, u.id) && !u.isDeleted ==> u in GetLeads(st, Some(u.id))
  {
  }
}

=== FILE: wrappers.dfy ===
/** The wrappers used throughout the model: `Option` stands for a nullable
    reference, `Result` for a value or the error the source reports. */
module Wrappers {

  datatype Option<+T> = None | Some(value: T)

  datatype Result<+R, +E> = Success(value: R) | Failure(error: E)
}

=== FILE: year_quarter_repo.dfy ===
/** The reporting-period repository. At most one quarter is meant to be
    active at a time: activating one (on add or update) deactivates every
    other, and the active quarter cannot be soft-deleted. Listings are the
    non-deleted (or deleted) quarters, newest year first, then highest
    quarter first. */
module YearQuarterRepo {
  import opened Wrappers
  import opened Seqs
  import opened Ordering
  import opened Domain

  /** No two rows are active. */
  predicate AtMostOneActive(qs: seq<YearQuarter>)
  {
    forall i, j :: 0 <= i < |qs| && 0 <= j < |qs| && qs[i].isActive && qs[j].isActive ==> i == j
  }

  /** The bulk `IsActive = false` update over every row matching `p`. */
  function DeactivateWhere(qs: seq<YearQuarter>, p: YearQuarter -> bool): (r: seq<YearQuarter>)
    ensures |r| == |qs|
    ensures forall i :: 0 <= i < |qs| ==> r[i] == (if p(qs[i]) && qs[i].isActive then qs[i].(isActive := false) else qs[i])
  {
    UpdateWhere(qs, (q: YearQuarter) => p(q) && q.isActive, (q: YearQuarter) => q.(isActive := false))
  }

  /** `AddAsync`. The bulk deactivation is executed against the database
      before the insert is saved, so when the insert then fails on a taken
      key the deactivation has already happened. */
  function Add(qs: seq<YearQuarter>, yq: YearQuarter): (r: Outcome<seq<YearQuarter>, YearQuarter>)
    ensures r.result.Success? <==> yq.id !in Image(qs, QuarterKey)
    ensures r.result.Failure? ==> r.result.error == DuplicateKey
    ensures !yq.isActive ==> r.state == (if r.result.Success? then qs + [yq] else qs)
    ensures yq.isActive ==>
      && |r.state| == |qs| + (if r.result.Success? then 1 else 0)
      && (forall i :: 0 <= i < |qs| ==> r.state[i] == qs[i].(isActive := false))
      && (r.result.Success? ==> r.state[|qs|] == yq)
    ensures yq.isActive && r.result.Success? ==>
      forall i :: 0 <= i < |r.state| ==> (r.state[i].isActive <==> i == |qs|)
    ensures AtMostOneActive(qs) ==> AtMostOneActive(r.state)
    ensures UniqueBy(qs, QuarterKey) ==> UniqueBy(r.state, QuarterKey)
  {
    var before := if yq.isActive then DeactivateWhere(qs, (q: YearQuarter) => true) else qs;
    ImageSameKeys(before, qs, QuarterKey);
    if yq.id in Image(qs, QuarterKey) then Outcome(before, Failure(DuplicateKey))
    else
      AddKeepsUnique(qs, before, yq);
      Outcome(before + [yq], Success(yq))
  }

  lemma AddKeepsUnique(qs: seq<YearQuarter>, before: seq<YearQuarter>, yq: YearQuarter)
    requires |before| == |qs| && forall i :: 0 <= i < |qs| ==> before[i].id == qs[i].id
    requires yq.id !in Image(qs, QuarterKey)
    ensures UniqueBy(qs, QuarterKey) ==> UniqueBy(before + [yq], QuarterKey)
  {
    if UniqueBy(qs, QuarterKey) {
      assert UniqueBy(before, QuarterKey) by {
        forall i, j | 0 <= i < j < |before| ensures before[i].id != before[j].id {
          assert QuarterKey(qs[i]) != QuarterKey(qs[j]);
        }
      }
      forall y | y in before ensures QuarterKey(y) != QuarterKey(yq) {
        var k :| 0 <= k < |before| && before[k] == y;
        assert qs[k] in qs;
      }
      UniqueByAppend(before, QuarterKey, yq);
    }
  }

  /** `UpdateAsync`: only StartDate, EndDate and IsActive of the stored row
      are overwritten; activating it deactivates every other row. */
  function Update(qs: seq<YearQuarter>, yq: YearQuarter): (r: Outcome<seq<YearQuarter>, ()>)
    ensures r.result.Success? <==> yq.id in Image(qs, QuarterKey)
    ensures r.result.Failure? ==> r.state == qs && r.result.error == NotFound
    ensures |r.state| == |qs|
    ensures r.result.Success? ==> forall i :: 0 <= i < |qs| && qs[i].id == yq.id ==>
      r.state[i] == qs[i].(startDate := yq.startDate, endDate := yq.endDate, isActive := yq.isActive)
    ensures r.result.Success? ==> forall i :: 0 <= i < |qs| && qs[i].id != yq.id ==>
      r.state[i] == (if yq.isActive then qs[i].(isActive := false) else qs[i])
    ensures UniqueBy(qs, QuarterKey) && yq.isActive && r.result.Success? ==>
      forall i :: 0 <= i < |qs| ==> (r.state[i].isActive <==> qs[i].id == yq.id)
  {
    if yq.id !in Image(qs, QuarterKey) then Outcome(qs, Failure(NotFound))
    else
      var copied := UpdateWhere(qs, (q: YearQuarter) => q.id == yq.id,
                                (q: YearQuarter) => q.(startDate := yq.startDate, endDate := yq.endDate, isActive := yq.isActive));
      var r := if yq.isActive then DeactivateWhere(copied, (q: YearQuarter) => q.id != yq.id) else copied;
      Outcome(r, Success(()))
  }

  /** Add and Update both keep at most one quarter active. */
  lemma UpdateKeepsAtMostOneActive(qs: seq<YearQuarter>, yq: YearQuarter)
    requires UniqueBy(qs, QuarterKey) && AtMostOneActive(qs)
    ensures AtMostOneActive(Update(qs, yq).state)
  {
    var r := Update(qs, yq).state;
    if Update(qs, yq).result.Success? && !yq.isActive {
      forall i, j | 0 <= i < |r| && 0 <= j < |r| && r[i].isActive && r[j].isActive ensures i == j {
        assert qs[i].isActive && qs[j].isActive;
      }
    } else if Update(qs, yq).result.Success? {
      forall i, j | 0 <= i < |r| && 0 <= j < |r| && r[i].isActive && r[j].isActive ensures i == j {
        assert qs[i].id == yq.id && qs[j].id == yq.id;
        UniqueIndex(qs, QuarterKey, i, j);
      }
    }
  }

  /** `SoftDeleteAsync`: a missing or active quarter is left alone. */
  function SoftDelete(qs: seq<YearQuarter>, id: Guid): (r: seq<YearQuarter>)
    ensures |r| == |qs|
    ensures forall i :: 0 <= i < |qs| ==> r[i] == qs[i] || (r[i] == qs[i].(isDeleted := true) && qs[i].id == id)
    ensures UniqueBy(qs, QuarterKey) ==> forall i :: 0 <= i < |qs| && qs[i].isActive ==> r[i] == qs[i]
    ensures FindFirst(qs, (q: YearQuarter) => q.id == id).None? ==> r == qs
    ensures (forall q :: q in qs && q.id == id ==> q.isActive) ==> r == qs
    ensures UniqueBy(qs, QuarterKey) && (exists q :: q in qs && q.id == id && !q.isActive) ==>
      forall q :: q in r && q.id == id ==> q.isDeleted
  {
    match FindFirst(qs, (q: YearQuarter) => q.id == id)
    case None => qs
    case Some(q) =>
      if q.isActive then qs
      else
        var r := UpdateWhere(qs, (x: YearQuarter) => x.id == id, (x: YearQuarter) => x.(isDeleted := true));
        SoftDeleteSameRow(qs, id, q);
        r
  }

  lemma SoftDeleteSameRow(qs: seq<YearQuarter>, id: Guid, q: YearQuarter)
    requires q in qs && q.id == id && !q.isActive
    requires FindFirst(qs, (x: YearQuarter) => x.id == id) == Some(q)
    ensures forall i :: 0 <= i < |qs| && qs[i].id == id && UniqueBy(qs, QuarterKey) ==> qs[i] == q
    ensures UniqueBy(qs, QuarterKey) ==> forall i :: 0 <= i < |qs| && qs[i].id == id ==> !qs[i].isActive
  {
    forall i | 0 <= i < |qs| && qs[i].id == id && UniqueBy(qs, QuarterKey) ensures qs[i] == q {
      UniqueKeyMember(qs, QuarterKey, qs[i], q);
    }
  }

  /** `RestoreAsync`: clears IsDeleted on a deleted row; otherwise no change. */
  function Restore(qs: seq<YearQuarter>, id: Guid): (r: seq<YearQuarter>)
    ensures |r| == |qs|
    ensures forall i :: 0 <= i < |qs| ==> r[i] == qs[i] || (r[i] == qs[i].(isDeleted := false) && qs[i].id == id)
    ensures (forall q :: q in qs && q.id == id ==> !q.isDeleted) ==> r == qs
    ensures forall i :: 0 <= i < |qs| ==> r[i].isActive == qs[i].isActive
    ensures UniqueBy(qs, QuarterKey) && (exists q :: q in qs && q.id == id && q.isDeleted) ==>
      forall q :: q in r && q.id == id ==> !q.isDeleted
  {
    match FindFirst(qs, (q: YearQuarter) => q.id == id)
    case None => qs
    case Some(q) =>
      if !q.isDeleted then qs
      else UpdateWhere(qs, (x: YearQuarter) => x.id == id, (x: YearQuarter) => x.(isDeleted := false))
  }

  /** Restoring a quarter that was just soft-deleted gives back the table. */
  lemma RestoreUndoesSoftDelete(qs: seq<YearQuarter>, id: Guid)
    requires UniqueBy(qs, QuarterKey)
    requires forall q :: q in qs && q.id == id ==> !q.isDeleted
    ensures Restore(SoftDelete(qs, id), id) == qs
  {
    var d := SoftDelete(qs, id);
    match FindFirst(qs, (q: YearQuarter) => q.id == id)
    case None =>
    case Some(q) =>
      if !q.isActive {
        SoftDeleteSameRow(qs, id, q);
        var k :| 0 <= k < |qs| && qs[k] == q;
        assert d[k].id == id && d[k].isDeleted;
        var f := FindFirst(d, (x: YearQuarter) => x.id == id);
        assert d[k] in d;
        assert f.Some?;
        assert f.value.isDeleted by {
          var j :| 0 <= j < |d| && d[j] == f.value;
          assert qs[j].id == id;
        }
        var r := Restore(d, id);
        assert |r| == |qs|;
        forall i | 0 <= i < |qs| ensures r[i] == qs[i] {
        }
      }
  }

  /** `DeleteAsync`: for a missing id the source removes a null row and
      throws; that is modelled as NotFound with nothing changed. Otherwise the
      row goes. */
  function Delete(qs: seq<YearQuarter>, id: Guid): (r: Outcome<seq<YearQuarter>, ()>)
    ensures r.result.Success? <==> id in Image(qs, QuarterKey)
    ensures r.result.Failure? ==> r.state == qs && r.result.error == NotFound
    ensures r.result.Success? ==> forall q :: q in r.state <==> q in qs && q.id != id
  {
    if id !in Image(qs, QuarterKey) then Outcome(qs, Failure(NotFound))
    else Outcome(Filter(qs, (q: YearQuarter) => q.id != id), Success(()))
  }

  /** `ExistsAsync`: a non-deleted row carries the id. */
  function Exists(qs: seq<YearQuarter>, id: Guid): (r: bool)
    ensures r <==> exists q :: q in qs && q.id == id && !q.isDeleted
  {
    FindFirst(qs, (q: YearQuarter) => q.id == id && !q.isDeleted).Some?
  }

  /** `GetByIdAsync`, deleted rows included. */
  function GetById(qs: seq<YearQuarter>, id: Guid): (r: Option<YearQuarter>)
    ensures r.Some? ==> r.value in qs && r.value.id == id
    ensures r.None? <==> id !in Image(qs, QuarterKey)
  {
    FindFirst(qs, (q: YearQuarter) => q.id == id)
  }

  /** Year descending, then quarter descending. */
  function Newest(): (YearQuarter, YearQuarter) -> bool
  {
    (a: YearQuarter, b: YearQuarter) => a.year > b.year || (a.year == b.year && a.quarter >= b.quarter)
  }

  lemma NewestIsPreorder()
    ensures TotalPreorder(Newest())
  {
  }

  /** The rows satisfying `p`, newest first. */
  function Listing(qs: seq<YearQuarter>, p: YearQuarter -> bool): (r: seq<YearQuarter>)
    ensures forall q :: q in r <==> q in qs && p(q)
    ensures |r| == Count(qs, p)
    ensures forall i, j :: 0 <= i < j < |r| ==>
      r[i].year > r[j].year || (r[i].year == r[j].year && r[i].quarter >= r[j].quarter)
  {
    var f := Filter(qs, p);
    NewestIsPreorder();
    SortByMembers(f, Newest());
    var r := SortBy(f, Newest());
    assert forall i, j :: 0 <= i < j < |r| ==> Newest()(r[i], r[j]);
    r
  }

  /** `GetAllAsync`. */
  function GetAll(qs: seq<YearQuarter>): (r: seq<YearQuarter>)
    ensures forall q :: q in r <==> q in qs && !q.isDeleted
    ensures |r| == Count(qs, (q: YearQuarter) => !q.isDeleted)
    ensures forall i, j :: 0 <= i < j < |r| ==>
      r[i].year > r[j].year || (r[i].year == r[j].year && r[i].quarter >= r[j].quarter)
  {
    Listing(qs, (q: YearQuarter) => !q.isDeleted)
  }

  /** `GetDeletedAsync`. */
  function GetDeleted(qs: seq<YearQuarter>): (r: seq<YearQuarter>)
    ensures forall q :: q in r <==> q in qs && q.isDeleted
    ensures |r| == Count(qs, (q: YearQuarter) => q.isDeleted)
    ensures forall i, j :: 0 <= i < j < |r| ==>
      r[i].year > r[j].year || (r[i].year == r[j].year && r[i].quarter >= r[j].quarter)
  {
    Listing(qs, (q: YearQuarter) => q.isDeleted)
  }

  /** `GetActiveAsync` does not look at IsActive: an inactive, non-deleted
      quarter is listed, and the listing is the same as `GetAll`. */
  function GetActive(qs: seq<YearQuarter>): (r: seq<YearQuarter>)
    ensures forall q :: q in qs && !q.isDeleted && !q.isActive ==> q in r
    ensures r == GetAll(qs)
  {
    Listing(qs, (q: YearQuarter) => !q.isDeleted)
  }

  /** GetAll and GetDeleted split the table: every quarter is in exactly
      one of the two listings. */
  lemma ListingsSplitTable(qs: seq<YearQuarter>)
    ensures |GetAll(qs)| + |GetDeleted(qs)| == |qs|
    ensures forall q :: q in qs ==> (q in GetAll(qs) <==> q !in GetDeleted(qs))
  {
    CountPartition(qs, (q: YearQuarter) => !q.isDeleted, (q: YearQuarter) => q.isDeleted);
  }

  /** The soft-delete guard is not an invariant: Update may activate a
      quarter that is already deleted, which then is both. */
  lemma UpdateCanActivateDeleted(qs: seq<YearQuarter>, k: nat)
    requires k < |qs| && qs[k].isDeleted
    ensures var r := Update(qs, qs[k].(isActive := true)).state;
      r[k].isActive && r[k].isDeleted
  {
    assert qs[k] in qs;
  }
}
